=== FILE: README.md ===
# Shooting kōkaton: a Dafny model of the game kernel

`shootinggame_koukaton.py` is a pygame side-scroller. The player (the
"kōkaton", `Bird`) dodges enemies, their bombs and walls of obstacles. It
fires beams and spends its score on a shield, a gravity field, an EMP and a
hyper mode. This project models the deterministic kernel under the pygame
calls: integer rectangle arithmetic, life-counter timers, the enemy state
machine, the obstacle-wall generator, the score economy, and one iteration
of `main`'s loop. That iteration runs input, then spawning, then the six
collision phases, then the updates, and ends in a terminal outcome. It is
written as immutable datatypes and pure functions, with lemmas about them.

Modules, one per component:

- `Arena`: the 1100 × 650 arena, pygame rectangles, `check_bound`, and `colliderect` as `Overlap`.
- `Timers`: the Gravity, Shield and EMP fields, and the Explosion with its two-image index.
- `Player`: key vector, all-or-nothing move, remembered direction, hyper countdown.
- `Enemies`: spawn, the advance/stop state machine, bomb-drop timing, the EMP effect.
- `Obstacles`: tiles, their drift, and `create_obstacle_wall`.
- `Projectiles`: bombs and beams.
- `Collisions`: `spritecollide` and `groupcollide`.
- `Economy`: the starting score, the costs and the rewards.
- `Game`: the `World` record and one tick, `Step`.
- `GameProperties`: the world invariant every running tick keeps.
- `Scenarios`: the behaviour in particular situations.
- `Seqs` and `Wrappers`: generic helpers.

Inputs from outside the kernel are parameters. The decoded events of a tick
are a `seq<Event>` and the pressed keys a `set<Key>`. Random draws and image
sizes come in an `Env` record: the enemy's image size, centre y, stop line
and drop period; the wall's gap start; per enemy, a bomb radius and the unit
direction toward the player; and the shield and beam image sizes.
`ValidEnv` states the ranges `random.randint` guarantees.

The model follows the code as written, including:

- The hyper purchase (lines 406-409) sits inside the event loop. It is charged once per queued event while right shift is held, except for the quit event and a shield purchase that raises, both of which leave the loop first. A tick with no events pays nothing.
- Enemies are never bound-checked. Obstacles are removed only once their right edge is negative. Both spawn outside the arena. Only the player, bombs and beams are kept inside it.
- The EMP group is updated only once, before the loop (line 381). EMP fields therefore never count down during play.
- `groupcollide` scores once per enemy, however many beams it removes.
- A fatal hit ends the run at once. The two-second pause is not modelled.
- A shield bought before the player has ever moved raises an error at line 277. The model ends the run with `Crash`, after the 50 points are paid.

## Model

| member | source | states |
|---|---|---|
| Arena.CheckBound | shootinggame_koukaton.py:31-42 | first component true iff left ≥ 0 and right ≤ 1100; second iff top ≥ 0 and bottom ≤ 650 |
| Arena.CheckBoundAxes | shootinggame_koukaton.py:37-42 | the horizontal verdict depends only on the horizontal edges, the vertical one only on the vertical edges |
| Arena.InsideEdges | shootinggame_koukaton.py:31-42 | `(True, True)` exactly when all four edges lie within the arena |
| Arena.OverlapProperties | shootinggame_koukaton.py:428-472 | `colliderect` is symmetric, and boxes that only share an edge do not collide |
| Arena.CenteredAt | shootinggame_koukaton.py:79 | assigning a centre gives a box whose centre reads back as that point, size unchanged |
| Timers.TickField | shootinggame_koukaton.py:25-28 | a Gravity/Shield/EMP update survives iff its life was at least 1, leaving life − 1 ≥ 0 |
| Timers.FieldLifetime | shootinggame_koukaton.py:290-296 | a field created with life L is present after n updates iff n ≤ L, so update L + 1 removes it |
| Timers.TickFields | shootinggame_koukaton.py:477 | survivors of a group update are exactly the decremented members that had life ≥ 1, all with life ≥ 0 |
| Timers.Blast | shootinggame_koukaton.py:195-200 | a new explosion sits at the exploding sprite's centre with the given life and its first image |
| Timers.ImageIndex | shootinggame_koukaton.py:208 | the image index `life//10 % 2` is always 0 or 1 |
| Timers.ImageAlternates | shootinggame_koukaton.py:207-208 | the image flips every ten lives and is constant within each aligned block of ten |
| Timers.TickExplosion | shootinggame_koukaton.py:202-210 | an explosion survives iff its life was at least 1; its centre is kept and its image matches the new life |
| Timers.ExplosionLifetime | shootinggame_koukaton.py:202-210 | an explosion created with life L is shown after n updates iff n ≤ L, at its original centre, with life L − n |
| Timers.TickExplosions | shootinggame_koukaton.py:486 | the survivors of a group update are exactly the updates of the explosions with life ≥ 1, each with life ≥ 0 and a valid image |
| Player.NewBird | shootinggame_koukaton.py:68-82 | the player starts centred on (900, 400), normal, hyper life 500, no direction; inside the arena for images up to 400 × 500 |
| Player.KeyVector | shootinggame_koukaton.py:61-66 | each key-vector component lies in [−1, 1] and is zero iff both or neither of its axis's keys are held |
| Player.Update | shootinggame_koukaton.py:99-116 | the whole move is applied iff its target is inside, else none of it; inside stays inside; direction changes only on a nonzero vector; hyper life drops only in hyper mode, which ends exactly when it goes negative |
| Player.OppositeKeysCancel | shootinggame_koukaton.py:99-108 | holding both keys of an axis is the same update as holding neither |
| Player.NoMoveKeepsDirection | shootinggame_koukaton.py:104-108 | with a cancelled key vector, position and remembered direction are unchanged |
| Player.Activate | shootinggame_koukaton.py:408-409 | activation sets hyper mode with 500 ticks and changes nothing else about the player |
| Player.HyperLasts | shootinggame_koukaton.py:113-116 | a hyper player with life L is hyper after n updates iff n ≤ L |
| Player.StaysNormal | shootinggame_koukaton.py:113-116 | without an activation a normal player never becomes hyper |
| Enemies.Spawn | shootinggame_koukaton.py:219-227 | a new enemy has the drawn image size, is centred at (1150, y), advances at speed 6 toward the drawn stop line with the drawn drop period; it starts outside the arena; with valid draws it satisfies the state-machine invariant |
| Enemies.Update | shootinggame_koukaton.py:229-238 | the enemy is stopped afterwards iff it was stopped or its centre was left of its line; on the stopping update its velocity becomes 0 and its box stays put; the invariant is kept; a stopped enemy never moves; an advancing one moves 6 left |
| Enemies.StaysStopped | shootinggame_koukaton.py:235-237 | a stopped enemy stays stopped under any number of updates |
| Enemies.StopsExactly | shootinggame_koukaton.py:235-238 | an advancing enemy is stopped after n updates iff n ≥ StopTicks, the first update that finds its centre left of the line |
| Enemies.DropDue | shootinggame_koukaton.py:423-424 | only a holding enemy drops; on tick 0 every holding enemy drops; an enemy with an infinite period never drops after tick 0 |
| Enemies.DropPeriod | shootinggame_koukaton.py:424 | a holding enemy with period n that drops on a tick drops again n ticks later and on no tick in between |
| Enemies.SilencedByEmp | shootinggame_koukaton.py:316-317 | after an EMP's infinite period, no drop is due on any tick after tick 0 |
| Enemies.Disable | shootinggame_koukaton.py:316-317 | the EMP removes the drop period and leaves position, state, line and velocity alone |
| Obstacles.Spawn | shootinggame_koukaton.py:337-343 | a tile is 50 × 50, centred at (1150, y), outside the arena |
| Obstacles.SlotsCoverHeight | shootinggame_koukaton.py:356 | 13 slots of 50 cover the height 650 exactly |
| Obstacles.RowsFrom | shootinggame_koukaton.py:356-359 | the rows are multiples of 50 in [0, 650), outside the gap, strictly increasing |
| Obstacles.RowsFromCover | shootinggame_koukaton.py:356-360 | every slot outside the gap is one of the rows |
| Obstacles.Wall | shootinggame_koukaton.py:350-361 | the wall has one fresh tile per row, in row order |
| Obstacles.WallSlots | shootinggame_koukaton.py:355-361 | a tile has centre y iff y is a multiple of 50 in [0, 650) outside [gap, gap + 150); tiles are in strictly increasing y order, so distinct |
| Obstacles.GapSlots | shootinggame_koukaton.py:357 | a slot is in the gap iff it is one of the three slots from the gap start rounded up |
| Obstacles.RowsFromSize | shootinggame_koukaton.py:356-360 | the number of rows from slot k on is the remaining slots minus the gap slots among them |
| Obstacles.WallSize | shootinggame_koukaton.py:355-361 | every wall with gap start in [0, 500] has exactly 10 tiles |
| Obstacles.Update | shootinggame_koukaton.py:345-348 | a tile moves 6 left and survives iff its new right edge is not negative; no other bound check applies |
| Obstacles.Lifetime | shootinggame_koukaton.py:345-348 | a tile survives n updates iff 6n ≤ its right edge |
| Obstacles.SpawnedTileLifetime | shootinggame_koukaton.py:342-348 | a fresh tile starts outside the arena yet survives 195 updates and is gone after 196 |
| Projectiles.Drop | shootinggame_koukaton.py:125-143 | a bomb is a 2r × 2r box at the enemy's centre x and half an enemy height lower, armed, speed 6, with the given direction |
| Projectiles.Trunc | shootinggame_koukaton.py:150 | a float offset becomes the integer nearest to it toward zero |
| Projectiles.UpdateBomb | shootinggame_koukaton.py:145-152 | a bomb moves by its speed times its fixed direction, truncated toward zero, keeping direction, speed and state; it survives iff the moved box is inside the arena |
| Projectiles.Disarm | shootinggame_koukaton.py:320-322 | the EMP halves a bomb's speed and marks it inactive, keeping its box and direction |
| Projectiles.Fire | shootinggame_koukaton.py:159-173 | a beam is centred one player width right of the player's centre, at the same height |
| Projectiles.UpdateBeam | shootinggame_koukaton.py:175-182 | a beam moves 10 right and survives iff it is then inside |
| Projectiles.UpdateBombs | shootinggame_koukaton.py:484 | the survivors are exactly the updates of the bombs whose move stays inside, so every survivor is inside |
| Projectiles.UpdateBeams | shootinggame_koukaton.py:480 | the survivors are exactly the updates of the beams whose move stays inside, so every survivor is inside |
| Collisions.SpriteCollide | shootinggame_koukaton.py:442-447 | the group splits into members touching the target and members not touching it, nothing lost |
| Collisions.SpriteCollideAll | shootinggame_koukaton.py:447 | a target touching every member takes the whole group |
| Collisions.GroupCollide | shootinggame_koukaton.py:428-438 | the first group splits into kept and hit with nothing lost; the second only shrinks, and not at all without kill; with kill each hit consumes at least one sprite of the second group |
| Collisions.KeptTouchNothing | shootinggame_koukaton.py:428-432 | no kept sprite of the first group touches a surviving sprite of the second |
| Collisions.FirstComeConsumes | shootinggame_koukaton.py:428-434 | with kill, nothing left of the second group touches any sprite of the first group, hit or kept |
| Collisions.HitIffFirstToTouch | shootinggame_koukaton.py:428-434 | with kill and distinct sprites, a sprite of the first group is hit iff some sprite of the second group touches it and no earlier sprite of the first group: each is consumed by the first sprite, in group order, that touches it |
| Collisions.HitsTouchSomething | shootinggame_koukaton.py:428-430 | every removed sprite of the first group touched a sprite of the second |
| Collisions.RemovedByAHit | shootinggame_koukaton.py:428-432 | every removed sprite of the second group touched a removed sprite of the first |
| Collisions.UntouchedKept | shootinggame_koukaton.py:428-438 | a sprite of the first group that touches no sprite of the second is kept |
| Collisions.UntouchedRemains | shootinggame_koukaton.py:428-434 | a sprite of the second group that no sprite of the first touches remains |
| Collisions.Blasts | shootinggame_koukaton.py:429 | one explosion per hit sprite, in order, all with the given life |
| Economy.Pay | shootinggame_koukaton.py:395-409 | a gated purchase deducts exactly its cost and never leaves the score negative |
| Game.Start | shootinggame_koukaton.py:369-380 | the run starts at tick 0 with score 10000, the new player and every group empty |
| Game.NewShield | shootinggame_koukaton.py:277-288 | the shield has the configured size, sits one player size away in the remembered direction, life 400 |
| Game.Emp | shootinggame_koukaton.py:303-322 | the EMP disables every enemy and disarms every bomb, keeping all of them, and adds a life-10 field; nothing else in the world changes |
| Game.KeyAction | shootinggame_koukaton.py:392-404 | a key action never raises the score nor makes it negative; it only ends the run by crashing |
| Game.HyperCheck | shootinggame_koukaton.py:406-409 | the hyper check changes nothing iff right shift is not held or the score is below 100; otherwise it costs exactly 100 and activates hyper mode |
| Game.HandleEvent | shootinggame_koukaton.py:389-409 | an event never raises the score nor makes it negative; it ends the run iff it is the quit event or a crashing key action; only the quit event ends it with Quit |
| Game.HandleEvents | shootinggame_koukaton.py:389-409 | a tick's events never raise the score and never make it negative |
| Game.DropsFrom | shootinggame_koukaton.py:423-426 | one armed bomb per enemy whose drop is due, and every bomb is the drop of such an enemy with that enemy's draw |
| Game.Spawn | shootinggame_koukaton.py:417-426 | spawning keeps every existing enemy, obstacle and bomb and appends: the newly spawned enemy exactly when the counter is a multiple of 200, the wall on multiples of 225, then the due drops; score, player, beams, explosions, shields and fields are untouched |
| Game.GravityPass | shootinggame_koukaton.py:440-445 | a bomb or enemy survives if it overlaps no gravity field, and no survivor overlaps one; survivors come from the input; exactly one explosion of life 50 or 100 per removed sprite |
| Game.PlayerBombs | shootinggame_koukaton.py:447-459 | a fatal hit is reported iff the player is normal and an armed touching bomb exists; in hyper mode exactly the armed touching bombs explode; inactive ones never count |
| Game.BeamsOnEnemies | shootinggame_koukaton.py:428-430 | afterwards no enemy touches a beam; enemies and beams only shrink; an enemy touching no beam survives and a beam touching no enemy survives; exactly 10 points and one explosion per removed enemy |
| Game.BeamsOnBombs | shootinggame_koukaton.py:432-434 | afterwards no bomb touches a beam; bombs and beams only shrink; a bomb touching no beam survives and a beam touching no bomb survives; exactly 1 point and one explosion per removed bomb |
| Game.ShieldsOnBombs | shootinggame_koukaton.py:436-438 | afterwards no bomb touches a shield; the shields stay; a bomb touching no shield survives; exactly 1 point and one explosion per removed bomb |
| Game.ShootDown | shootinggame_koukaton.py:428-438 | afterwards no enemy or bomb touches a beam and no bomb touches a shield; bombs and beams only shrink; an enemy touching no beam, a bomb touching no beam and no shield, and a beam touching no enemy and no bomb all survive; exactly 10 per removed enemy and 1 per removed bomb, with one explosion each; player and timers are untouched |
| Game.Sweep | shootinggame_koukaton.py:440-445 | the gravity phase scores nothing; afterwards no bomb or enemy overlaps a gravity field, and one overlapping no field survives; one explosion per removed sprite |
| Game.BombsOnPlayer | shootinggame_koukaton.py:447-459 | touching bombs are removed; fatal iff the player is normal and an armed one touches it; in hyper mode 1 point per armed touching bomb, in normal mode none |
| Game.ObstaclesOnPlayer | shootinggame_koukaton.py:461-472 | touching obstacles are removed; the run ends iff the player is normal and one touches it; otherwise 1 point and one explosion each |
| Game.HitPlayer | shootinggame_koukaton.py:447-472 | the run ends, with GameOver, iff a normal player touches an armed bomb or any obstacle; touching bombs and obstacles are removed; in hyper mode the score rises by one per armed touching bomb and per removed obstacle |
| Game.Collide | shootinggame_koukaton.py:428-472 | the pipeline never lowers the score; the run ends, with GameOver, iff after the first four phases a normal player touches an armed bomb or an obstacle; a normal player on an obstacle always ends it |
| Game.UpdateEnemies | shootinggame_koukaton.py:482 | every enemy gets its own update, none is removed |
| Game.Advance | shootinggame_koukaton.py:475-492 | every group gets its own update: obstacles drift, fields and explosions count down, enemies, bombs and beams move, the player moves; every bomb and beam is then inside; the score is unchanged; the EMP group is untouched; the tick advances by one |
| Game.Step | shootinggame_koukaton.py:387-493 | a running tick advances the counter by one, an ending one does not; a non-negative score stays non-negative |
| GameProperties.StartValid | shootinggame_koukaton.py:369-380 | the initial world satisfies the world invariant |
| GameProperties.KeyActionKeepsCore | shootinggame_koukaton.py:392-404 | key actions keep the invariant: at most one shield, gated score, valid enemies, field lives |
| GameProperties.HandleEventsKeepsCore | shootinggame_koukaton.py:389-409 | any sequence of events and purchases keeps the invariant |
| GameProperties.SpawnKeepsCore | shootinggame_koukaton.py:417-426 | spawning with in-range draws keeps the invariant |
| GameProperties.CollideKeepsCore | shootinggame_koukaton.py:428-472 | the collision pipeline keeps the invariant |
| GameProperties.AdvanceMakesValid | shootinggame_koukaton.py:475-492 | the update phase re-establishes containment of bombs and beams and the rest of the invariant |
| GameProperties.StepKeepsValid | shootinggame_koukaton.py:387-493 | every running tick keeps the world valid, and the score is never negative whatever the outcome |
| Scenarios.ShieldPurchase | shootinggame_koukaton.py:395-397 | a funded shield costs exactly 50 and adds exactly the shield placed from the remembered direction, changing nothing else; a second purchase while it lives is a no-op |
| Scenarios.ShieldBeforeAnyMove | shootinggame_koukaton.py:395-397 | a shield bought before the first move crashes the run, with the 50 already paid |
| Scenarios.BeamIsFree | shootinggame_koukaton.py:393-394 | a beam costs nothing and appends exactly the beam fired from the player, changing nothing else |
| Scenarios.GravityPurchase | shootinggame_koukaton.py:398-401 | a funded gravity field costs exactly 200 and adds one arena-sized field of life 400, nothing else |
| Scenarios.UnaffordableIsNoOp | shootinggame_koukaton.py:395-409 | an unaffordable shield, gravity or EMP, or a shield while one exists, changes nothing, also with right shift held below 100 points |
| Scenarios.HyperChargedPerEvent | shootinggame_koukaton.py:406-409 | with right shift held, n events cost 100n and re-arm hyper mode; zero events cost nothing |
| Scenarios.EmpDisablesEverything | shootinggame_koukaton.py:402-404 | an EMP costs 20, silences every enemy and disarms every bomb, removing none |
| Scenarios.EnemyShotDown | shootinggame_koukaton.py:428-430 | an overlapping enemy and beam both go, with one explosion of life 100 and exactly +10 |
| Scenarios.EnemyHitTwice | shootinggame_koukaton.py:428-430 | two beams on one enemy are both removed, but the score rises only 10 and only one explosion appears |
| Scenarios.TwoEnemiesOneBeam | shootinggame_koukaton.py:428-430 | two enemies on one beam: the first takes the beam, the second is kept, +10 once |
| Scenarios.HyperPlayerSurvivesBomb | shootinggame_koukaton.py:447-453 | a hyper player touched by an armed bomb survives; the bomb explodes for +1 |
| Scenarios.NormalPlayerHitByBomb | shootinggame_koukaton.py:447-459 | a normal player touched by an armed bomb ends the run with GameOver |
| Scenarios.InactiveBombIsHarmless | shootinggame_koukaton.py:447-449 | a disarmed bomb touching the player is removed with no other effect |
| Scenarios.EnemySchedule | shootinggame_koukaton.py:417-418 | on ticks that are multiples of 200 exactly one advancing enemy is appended at (1150, drawn y); on other ticks none |
| Scenarios.WallSchedule | shootinggame_koukaton.py:420-421 | on ticks that are multiples of 225 the wall's ten tiles are appended after the existing obstacles; on other ticks nothing changes |

## Left out

- Rendering: `blit`, `draw`, `display`, the caption, the background scroll (lines 411-415), `Score.update`, `change_img` and the hyper `laplacian` filter. They have no checkable behaviour.
- Asset loading: every image is known only by its size, given as a parameter.
- `clock.tick(50)` and `time.sleep(2)`. Ticks are steps, and a fatal hit ends the run at once.
- `calc_orientation` (lines 45-54) uses `sqrt`. A bomb's unit direction is an input pair of reals. The division by zero when the two centres coincide is not modelled.
- Floating point: bomb speed and direction are exact reals, not IEEE doubles. Offsets are truncated toward zero as pygame converts them.
- The shield's `rotozoom` (line 280): its box size depends on trigonometry, so it is an input. Only its centre is modelled.
- Randomness (lines 132-134, 221-227, 355): the draws are `Env` fields. Bomb colours and enemy image choice matter only through sizes.
- Event polling (lines 388-389): it becomes the event sequence and the pressed-key set.
- Projectiles.UpdateBombs: states which bombs survive, not that the survivors keep their group order.
- Projectiles.UpdateBeams: states which beams survive, not that the survivors keep their group order.
- Collisions.GroupCollide: states membership and sizes; which sprites are hit is stated by Collisions.HitIffFirstToTouch for groups of distinct sprites. Neither states the order of the kept and hit sprites or the multiplicity of equal sprites. Two equal sprites behave identically.

=== FILE: arena.dfy ===
/** The fixed arena and the integer rectangles every entity occupies, with
    pygame's conventions for edges, centres and overlap. */
module Arena {

  /** Size of the game window. */
  const Width: int := 1100
  const Height: int := 650

  /** An axis-aligned box. Its size is the size of an image, so never negative. */
  datatype Rect = Rect(left: int, top: int, w: nat, h: nat) {
    function Right(): int { left + w }
    function Bottom(): int { top + h }
    /** pygame's centre rounds the half size down. */
    function CenterX(): int { left + w / 2 }
    function CenterY(): int { top + h / 2 }
  }

  /** The arena itself, the box of the Gravity and EMP overlays. */
  const Screen: Rect := Rect(0, 0, Width, Height)

  /** A box of the given size whose centre is assigned `(cx, cy)`. */
  function CenteredAt(cx: int, cy: int, w: nat, h: nat): (r: Rect)
    ensures r.CenterX() == cx && r.CenterY() == cy
    ensures r.w == w && r.h == h
  {
    Rect(cx - w / 2, cy - h / 2, w, h)
  }

  /** `move_ip`: a translation that keeps the size. */
  function Move(r: Rect, dx: int, dy: int): (m: Rect)
    ensures m.w == r.w && m.h == r.h
    ensures m.CenterX() == r.CenterX() + dx && m.CenterY() == r.CenterY() + dy
  {
    r.(left := r.left + dx, top := r.top + dy)
  }

  /** The containment test: the first component is false when the box sticks
      out horizontally, the second when it sticks out vertically. */
  function CheckBound(r: Rect): (res: (bool, bool))
    ensures res.0 <==> 0 <= r.left && r.Right() <= Width
    ensures res.1 <==> 0 <= r.top && r.Bottom() <= Height
  {
    var horizontal := if r.left < 0 || Width < r.Right() then false else true;
    var vertical := if r.top < 0 || Height < r.Bottom() then false else true;
    (horizontal, vertical)
  }

  /** The box lies within the arena on both axes. */
  predicate Inside(r: Rect) {
    CheckBound(r) == (true, true)
  }

  /** Each component of the test reads only the edges of its own axis. */
  lemma CheckBoundAxes(a: Rect, b: Rect)
    ensures a.left == b.left && a.w == b.w ==> CheckBound(a).0 == CheckBound(b).0
    ensures a.top == b.top && a.h == b.h ==> CheckBound(a).1 == CheckBound(b).1
  {
  }

  /** Inside the arena means all four edges are within it. */
  lemma InsideEdges(r: Rect)
    ensures Inside(r) <==> 0 <= r.left && r.Right() <= Width && 0 <= r.top && r.Bottom() <= Height
  {
  }

  /** pygame's `colliderect`: boxes of zero size touch nothing, and the
      intersection is strict, so boxes that share only an edge do not overlap. */
  predicate Overlap(a: Rect, b: Rect) {
    && a.w > 0 && a.h > 0 && b.w > 0 && b.h > 0
    && a.left < b.Right() && b.left < a.Right()
    && a.top < b.Bottom() && b.top < a.Bottom()
  }

  /** Overlap is symmetric, and touching edges do not collide. */
  lemma OverlapProperties(a: Rect, b: Rect)
    ensures Overlap(a, b) <==> Overlap(b, a)
    ensures a.Right() == b.left ==> !Overlap(a, b)
    ensures a.Bottom() == b.top ==> !Overlap(a, b)
  {
  }
}

=== FILE: collisions.dfy ===
/** The collision primitives of pygame's sprite module as the game uses
    them: `spritecollide` of one box against a group, and `groupcollide` of
    two groups in which every sprite of the first group that touches
    anything is removed. */
module Collisions {
  import opened Arena
  import Seqs
  import opened Timers

  /** Whether a sprite's box touches `target`. */
  function Touches<T>(target: Rect, box: T -> Rect): T -> bool {
    x => Overlap(target, box(x))
  }

  /** `spritecollide(target, group, True)`: the members touching `target`
      (removed) and the rest (kept), both in group order. */
  function SpriteCollide<T>(target: Rect, xs: seq<T>, box: T -> Rect): (r: (seq<T>, seq<T>))
    ensures |r.0| + |r.1| == |xs|
    ensures forall x :: x in r.0 ==> x in xs && Overlap(target, box(x))
    ensures forall x :: x in r.1 ==> x in xs && !Overlap(target, box(x))
    ensures forall i :: 0 <= i < |xs| ==> xs[i] in (if Overlap(target, box(xs[i])) then r.0 else r.1)
  {
    Seqs.Partition(xs, Touches(target, box))
  }

  /** Counting `q` among the members taken by `target` is counting the
      members that both touch `target` and satisfy `q`. */
  lemma CountTouching<T>(target: Rect, xs: seq<T>, box: T -> Rect, q: T -> bool, tq: T -> bool)
    requires forall i :: 0 <= i < |xs| ==> tq(xs[i]) == (Overlap(target, box(xs[i])) && q(xs[i]))
    ensures Seqs.Count(SpriteCollide(target, xs, box).0, q) == Seqs.Count(xs, tq)
  {
    Seqs.CountSelected(xs, Touches(target, box), q, tq);
  }

  /** A target touching every member takes the whole group. */
  lemma SpriteCollideAll<T>(target: Rect, xs: seq<T>, box: T -> Rect)
    requires forall i :: 0 <= i < |xs| ==> Overlap(target, box(xs[i]))
    ensures SpriteCollide(target, xs, box) == (xs, [])
  {
    Seqs.PartitionAll(xs, Touches(target, box));
  }

  /** Result of `groupcollide(as, bs, True, killB)`: the first group's
      untouched and hit sprites, and what is left of the second group. */
  datatype GroupHits<A, B> = GroupHits(kept: seq<A>, hit: seq<A>, rest: seq<B>)

  /** `groupcollide`: each sprite of `xs` in turn is matched against the
      sprites of `ys` still present; if it touches any, it is removed, and
      when `killB` so is every sprite of `ys` it touches. A sprite of `xs`
      counts once however many it touches. */
  function GroupCollide<A, B>(xs: seq<A>, ys: seq<B>, boxA: A -> Rect, boxB: B -> Rect, killB: bool): (r: GroupHits<A, B>)
    ensures |r.kept| + |r.hit| == |xs|
    ensures forall a :: a in r.kept ==> a in xs
    ensures forall a :: a in r.hit ==> a in xs
    ensures forall i :: 0 <= i < |xs| ==> xs[i] in r.kept || xs[i] in r.hit
    ensures forall b :: b in r.rest ==> b in ys
    ensures !killB ==> r.rest == ys
    ensures killB ==> |r.hit| <= |ys| - |r.rest|
    decreases |xs|
  {
    if |xs| == 0 then GroupHits([], [], ys)
    else
      var a := xs[0];
      var touched := SpriteCollide(boxA(a), ys, boxB);
      var left := if killB then touched.1 else ys;
      var sub := GroupCollide(xs[1..], left, boxA, boxB, killB);
      assert forall i :: 1 <= i < |xs| ==> xs[i] == xs[1..][i - 1];
      if |touched.0| > 0 then GroupHits(sub.kept, [a] + sub.hit, sub.rest)
      else GroupHits([a] + sub.kept, sub.hit, sub.rest)
  }

  /** What survives of both groups does not touch: a kept sprite touched
      nothing still present at its turn, and the group only shrinks. */
  lemma {:induction false} KeptTouchNothing<A, B>(xs: seq<A>, ys: seq<B>, boxA: A -> Rect, boxB: B -> Rect, killB: bool)
    ensures var r := GroupCollide(xs, ys, boxA, boxB, killB);
      forall a, b :: a in r.kept && b in r.rest ==> !Overlap(boxA(a), boxB(b))
    decreases |xs|
  {
    if |xs| > 0 {
      var a := xs[0];
      var touched := SpriteCollide(boxA(a), ys, boxB);
      var left := if killB then touched.1 else ys;
      KeptTouchNothing(xs[1..], left, boxA, boxB, killB);
      var r := GroupCollide(xs, ys, boxA, boxB, killB);
      var sub := GroupCollide(xs[1..], left, boxA, boxB, killB);
      if |touched.0| == 0 {
        forall b | b in sub.rest ensures !Overlap(boxA(a), boxB(b)) {
          assert b in ys;
        }
      }
    }
  }

  /** With `killB`, a sprite of the second group is consumed by the first
      sprite that touches it: nothing left of the second group touches any
      sprite of the first, hit or kept. */
  lemma {:induction false} FirstComeConsumes<A, B>(xs: seq<A>, ys: seq<B>, boxA: A -> Rect, boxB: B -> Rect)
    ensures var r := GroupCollide(xs, ys, boxA, boxB, true);
      forall a, b :: a in xs && b in r.rest ==> !Overlap(boxA(a), boxB(b))
    decreases |xs|
  {
    if |xs| > 0 {
      var a := xs[0];
      var touched := SpriteCollide(boxA(a), ys, boxB);
      FirstComeConsumes(xs[1..], touched.1, boxA, boxB);
      var r := GroupCollide(xs, ys, boxA, boxB, true);
      forall a', b | a' in xs && b in r.rest ensures !Overlap(boxA(a'), boxB(b)) {
        assert b in touched.1;
        if a' != a {
          assert a' in xs[1..];
        }
      }
    }
  }

  /** `y` touches the sprite at index `i` and none before it: with `killB`,
      that sprite is the one that consumes `y`. */
  predicate FirstToTouch<A, B>(xs: seq<A>, i: int, y: B, boxA: A -> Rect, boxB: B -> Rect)
    requires 0 <= i < |xs|
  {
    && Overlap(boxA(xs[i]), boxB(y))
    && forall j :: 0 <= j < i ==> !Overlap(boxA(xs[j]), boxB(y))
  }

  /** Being first to touch at index `i > 0` is not touching the head and being
      first to touch in the tail. */
  lemma FirstToTouchShift<A, B>(xs: seq<A>, i: int, y: B, boxA: A -> Rect, boxB: B -> Rect)
    requires 1 <= i < |xs|
    ensures FirstToTouch(xs, i, y, boxA, boxB)
      <==> !Overlap(boxA(xs[0]), boxB(y)) && FirstToTouch(xs[1..], i - 1, y, boxA, boxB)
  {
    assert forall j :: 1 <= j < |xs| ==> xs[1..][j - 1] == xs[j];
  }

  /** With `killB`, a sprite of the first group is hit exactly when some
      sprite of the second group touches it and touches no earlier sprite of
      the first group: each sprite of the second group goes to the first
      sprite, in group order, that touches it. */
  lemma {:induction false} HitIffFirstToTouch<A, B>(xs: seq<A>, ys: seq<B>, boxA: A -> Rect, boxB: B -> Rect)
    requires forall i, j :: 0 <= i < j < |xs| ==> xs[i] != xs[j]
    ensures forall i :: 0 <= i < |xs| ==>
      (xs[i] in GroupCollide(xs, ys, boxA, boxB, true).hit <==> exists y :: y in ys && FirstToTouch(xs, i, y, boxA, boxB))
    decreases |xs|
  {
    if |xs| > 0 {
      var a := xs[0];
      var touched := SpriteCollide(boxA(a), ys, boxB);
      var left := touched.1;
      var r := GroupCollide(xs, ys, boxA, boxB, true);
      var sub := GroupCollide(xs[1..], left, boxA, boxB, true);
      assert forall j :: 1 <= j < |xs| ==> xs[1..][j - 1] == xs[j];
      HitIffFirstToTouch(xs[1..], left, boxA, boxB);
      assert a !in xs[1..];
      assert forall y :: y in left <==> y in ys && !Overlap(boxA(a), boxB(y)) by {
        forall y | y in ys && !Overlap(boxA(a), boxB(y)) ensures y in left {
          var k :| 0 <= k < |ys| && ys[k] == y;
        }
      }
      forall i | 0 <= i < |xs|
        ensures xs[i] in r.hit <==> exists y :: y in ys && FirstToTouch(xs, i, y, boxA, boxB)
      {
        if i == 0 {
          if |touched.0| > 0 {
            assert touched.0[0] in ys && FirstToTouch(xs, 0, touched.0[0], boxA, boxB);
          } else {
            assert a !in sub.hit;
            forall y | y in ys ensures !FirstToTouch(xs, 0, y, boxA, boxB) {
              var k :| 0 <= k < |ys| && ys[k] == y;
            }
          }
        } else {
          assert xs[i] != a;
          assert xs[i] in r.hit <==> xs[1..][i - 1] in sub.hit;
          forall y ensures FirstToTouch(xs, i, y, boxA, boxB)
            <==> !Overlap(boxA(a), boxB(y)) && FirstToTouch(xs[1..], i - 1, y, boxA, boxB) {
            FirstToTouchShift(xs, i, y, boxA, boxB);
          }
        }
      }
    }
  }

  /** Every removed sprite of the first group touched a sprite of the second. */
  lemma {:induction false} HitsTouchSomething<A, B>(xs: seq<A>, ys: seq<B>, boxA: A -> Rect, boxB: B -> Rect, killB: bool)
    ensures var r := GroupCollide(xs, ys, boxA, boxB, killB);
      forall a :: a in r.hit ==> exists b :: b in ys && Overlap(boxA(a), boxB(b))
    decreases |xs|
  {
    if |xs| > 0 {
      var a := xs[0];
      var touched := SpriteCollide(boxA(a), ys, boxB);
      var left := if killB then touched.1 else ys;
      HitsTouchSomething(xs[1..], left, boxA, boxB, killB);
      var sub := GroupCollide(xs[1..], left, boxA, boxB, killB);
      forall a' | a' in sub.hit ensures exists b :: b in ys && Overlap(boxA(a'), boxB(b)) {
        var b :| b in left && Overlap(boxA(a'), boxB(b));
        assert b in ys;
      }
      if |touched.0| > 0 {
        assert touched.0[0] in ys;
      }
    }
  }

  /** Every removed sprite of the second group touched a removed sprite of
      the first. */
  lemma {:induction false} RemovedByAHit<A, B>(xs: seq<A>, ys: seq<B>, boxA: A -> Rect, boxB: B -> Rect, killB: bool)
    ensures var r := GroupCollide(xs, ys, boxA, boxB, killB);
      forall b :: b in ys && b !in r.rest ==> exists a :: a in r.hit && Overlap(boxA(a), boxB(b))
    decreases |xs|
  {
    if |xs| > 0 {
      var a := xs[0];
      var touched := SpriteCollide(boxA(a), ys, boxB);
      var left := if killB then touched.1 else ys;
      RemovedByAHit(xs[1..], left, boxA, boxB, killB);
      var r := GroupCollide(xs, ys, boxA, boxB, killB);
      var sub := GroupCollide(xs[1..], left, boxA, boxB, killB);
      forall b | b in ys && b !in r.rest ensures exists a' :: a' in r.hit && Overlap(boxA(a'), boxB(b)) {
        if b in left {
          var a' :| a' in sub.hit && Overlap(boxA(a'), boxB(b));
          assert a' in r.hit;
        } else {
          assert b in touched.0;
          assert a in r.hit;
        }
      }
    }
  }

  /** A sprite of the first group that touches nothing in the second is kept. */
  lemma UntouchedKept<A, B>(xs: seq<A>, ys: seq<B>, boxA: A -> Rect, boxB: B -> Rect, killB: bool, a: A)
    requires a in xs
    requires forall b :: b in ys ==> !Overlap(boxA(a), boxB(b))
    ensures a in GroupCollide(xs, ys, boxA, boxB, killB).kept
  {
    HitsTouchSomething(xs, ys, boxA, boxB, killB);
    var r := GroupCollide(xs, ys, boxA, boxB, killB);
    var i :| 0 <= i < |xs| && xs[i] == a;
    assert a !in r.hit;
  }

  /** A sprite of the second group that nothing in the first touches remains. */
  lemma UntouchedRemains<A, B>(xs: seq<A>, ys: seq<B>, boxA: A -> Rect, boxB: B -> Rect, killB: bool, b: B)
    requires b in ys
    requires forall a :: a in xs ==> !Overlap(boxA(a), boxB(b))
    ensures b in GroupCollide(xs, ys, boxA, boxB, killB).rest
  {
    RemovedByAHit(xs, ys, boxA, boxB, killB);
  }

  /** One fresh explosion of the given life per sprite, in order. */
  function Blasts<T>(xs: seq<T>, box: T -> Rect, life: int): (es: seq<Explosion>)
    ensures |es| == |xs|
    ensures forall i :: 0 <= i < |xs| ==> es[i] == Blast(box(xs[i]), life)
    ensures forall x :: x in es ==> x.life == life
  {
    seq(|xs|, i requires 0 <= i < |xs| => Blast(box(xs[i]), life))
  }
}

=== FILE: economy.dfy ===
/** The score economy: the starting score, what each ability costs, and
    what each kill earns. */
module Economy {

  const InitialScore: int := 10000

  const ShieldCost: int := 50
  const GravityCost: int := 200
  const EmpCost: int := 20
  const HyperCost: int := 100

  const EnemyReward: int := 10
  const BombReward: int := 1
  const ObstacleReward: int := 1

  /** An ability is bought only when the score covers its whole cost, and
      then exactly that cost is deducted: gated, never clamped. */
  function Pay(score: int, cost: nat): (r: int)
    requires score >= cost
    ensures 0 <= r <= score && r + cost == score
  {
    score - cost
  }
}

=== FILE: enemies.dfy ===
/** Enemies: spawned beyond the right edge, they advance left until their
    centre passes a randomly drawn stop line, then hold there and drop bombs
    on a fixed period. */
module Enemies {
  import opened Wrappers
  import opened Arena

  /** Horizontal speed while advancing. */
  const Advance: int := 6
  /** Range of the stop line, `randint(WIDTH // 2, WIDTH - 50)`. */
  const MinBound: int := Width / 2
  const MaxBound: int := Width - 50
  /** Spawn centre x. */
  const SpawnX: int := Width + 50

  /** The bomb-drop period, `randint(50, 300)`: never zero, so the period
      test never divides by zero. */
  type Interval = n: int | 50 <= n <= 300 witness 50

  /** "left" (advancing) and "stop" (holding) in the source. */
  datatype State = Advancing | Stopped

  /** `interval` is `None` once an EMP has set it to infinity. */
  datatype Enemy = Enemy(rect: Rect, vx: int, bound: int, state: State, interval: Option<Interval>)

  /** The random values of one spawn: image size, centre y, stop line, period. */
  datatype EnemyDraw = EnemyDraw(w: nat, h: nat, y: int, bound: int, interval: Interval)

  predicate ValidDraw(d: EnemyDraw) {
    0 <= d.y <= Height && MinBound <= d.bound <= MaxBound
  }

  /** The state-machine invariant: an advancing enemy moves at full speed and
      is at most one step past its line; a holding one is still and sits
      within one step to the left of its line. */
  predicate Valid(e: Enemy) {
    && MinBound <= e.bound <= MaxBound
    && (e.state == Advancing ==> e.vx == -Advance && e.rect.CenterX() >= e.bound - Advance)
    && (e.state == Stopped ==> e.vx == 0 && e.bound - Advance <= e.rect.CenterX() < e.bound)
  }

  /** `Enemy()`: a new enemy centred at (`Width + 50`, y), advancing. */
  function Spawn(d: EnemyDraw): (e: Enemy)
    ensures e.rect.CenterX() == SpawnX && e.rect.CenterY() == d.y
    ensures e.state == Advancing && e.interval == Some(d.interval)
    ensures e.rect.w == d.w && e.rect.h == d.h
    ensures e.bound == d.bound && e.vx == -Advance
    ensures !Inside(e.rect)
    ensures ValidDraw(d) ==> Valid(e)
  {
    Enemy(CenteredAt(SpawnX, d.y, d.w, d.h), -Advance, d.bound, Advancing, Some(d.interval))
  }

  /** `Enemy.update`: once the centre is left of the stop line the enemy
      stops for good; then it moves by its velocity. */
  function Update(e: Enemy): (r: Enemy)
    ensures r.state == Stopped <==> e.state == Stopped || e.rect.CenterX() < e.bound
    ensures r.bound == e.bound && r.interval == e.interval
    ensures Valid(e) ==> Valid(r)
    ensures Valid(e) && e.state == Stopped ==> r == e
    ensures Valid(e) && e.rect.CenterX() >= e.bound ==> r.rect == Move(e.rect, -Advance, 0)
    ensures e.rect.CenterX() < e.bound ==> r.rect == e.rect && r.vx == 0
  {
    var e1 := if e.rect.CenterX() < e.bound then e.(vx := 0, state := Stopped) else e;
    e1.(rect := Move(e1.rect, e1.vx, 0))
  }

  /** `n` consecutive updates. */
  function Run(e: Enemy, n: nat): Enemy
    decreases n
  {
    if n == 0 then e else Run(Update(e), n - 1)
  }

  /** Holding is final: a stopped enemy never advances again. */
  lemma {:induction false} StaysStopped(e: Enemy, n: nat)
    requires e.state == Stopped
    ensures Run(e, n).state == Stopped
    decreases n
  {
    if n > 0 {
      StaysStopped(Update(e), n - 1);
    }
  }

  /** The number of updates after which an advancing enemy holds. */
  function StopTicks(e: Enemy): int {
    (e.rect.CenterX() - e.bound + Advance) / Advance + 1
  }

  /** A valid advancing enemy switches to holding exactly at update
      `StopTicks(e)`, the first update that finds its centre left of the line. */
  lemma {:induction false} StopsExactly(e: Enemy, n: nat)
    requires Valid(e) && e.state == Advancing
    ensures StopTicks(e) >= 1
    ensures Run(e, n).state == Stopped <==> n >= StopTicks(e)
    decreases n
  {
    if n > 0 {
      var e1 := Update(e);
      if e.rect.CenterX() < e.bound {
        StaysStopped(e1, n - 1);
      } else {
        assert e1.rect.CenterX() == e.rect.CenterX() - Advance;
        assert StopTicks(e1) == StopTicks(e) - 1;
        StopsExactly(e1, n - 1);
      }
    }
  }

  /** Bomb drop timing: a holding enemy drops when the tick is a multiple of
      its period. Python's `tmr % inf` is `tmr` itself, which is zero only on
      tick 0, so after an EMP the enemy drops nothing on any later tick. */
  predicate DropDue(e: Enemy, tmr: nat): (due: bool)
    ensures due ==> e.state == Stopped
    ensures e.state == Stopped && tmr == 0 ==> due
    ensures e.interval.None? && tmr > 0 ==> !due
  {
    && e.state == Stopped
    && match e.interval
       case Some(n) => tmr % n == 0
       case None => tmr == 0
  }

  /** Shifting a multiple of `n` by less than `n` leaves exactly the shift
      as the remainder. */
  lemma MultiplePlus(q: int, n: int, k: int)
    requires n > 0 && 0 <= k < n
    ensures (q * n + k) % n == k
  {
    var x := q * n + k;
    var d := x / n - q;
    assert d * n == k - x % n;
  }

  /** A holding enemy with period `n` drops on one tick, then on the tick
      `n` later, and on none in between. */
  lemma DropPeriod(e: Enemy, tmr: nat, k: nat)
    requires e.state == Stopped && e.interval.Some? && DropDue(e, tmr)
    ensures DropDue(e, tmr + e.interval.value)
    ensures 0 < k < e.interval.value ==> !DropDue(e, tmr + k)
  {
    var n := e.interval.value;
    var q := tmr / n;
    assert tmr == q * n;
    MultiplePlus(q + 1, n, 0);
    assert tmr + n == (q + 1) * n;
    if 0 < k < n {
      MultiplePlus(q, n, k);
    }
  }

  /** An EMP'd enemy is silent from tick 1 on. */
  lemma SilencedByEmp(e: Enemy, tmr: nat)
    requires e.interval == None && tmr > 0
    ensures !DropDue(e, tmr)
  {
  }

  /** The EMP effect on one enemy: its period becomes infinite. */
  function Disable(e: Enemy): (r: Enemy)
    ensures r.interval == None
    ensures r.rect == e.rect && r.state == e.state && r.bound == e.bound && r.vx == e.vx
  {
    e.(interval := None)
  }
}

=== FILE: game.dfy ===
/** One tick of the game loop: input events and ability purchases, the
    spawn schedule, the fixed-order collision pipeline, the update of every
    group, and the terminal outcomes. */
module Game {
  import opened Wrappers
  import opened Arena
  import Seqs
  import opened Timers
  import opened Player
  import Enemies
  import Obstacles
  import opened Projectiles
  import opened Collisions
  import opened Economy

  /** Everything the loop keeps between ticks: the tick counter, the score,
      the player, and one group per entity kind, each in insertion order. */
  datatype World = World(
    tmr: nat,
    score: int,
    bird: Bird,
    bombs: seq<Bomb>,
    beams: seq<Beam>,
    exps: seq<Explosion>,
    emys: seq<Enemies.Enemy>,
    shields: seq<Field>,
    emps: seq<Field>,
    obstacles: seq<Obstacles.Obstacle>,
    gravities: seq<Field>)

  /** The world before the first tick, for a player image of size `w` by `h`. */
  function Start(w: nat, h: nat): (s: World)
    ensures s.tmr == 0 && s.score == InitialScore && s.bird == NewBird(w, h)
    ensures s.bombs == [] && s.beams == [] && s.exps == [] && s.emys == []
    ensures s.shields == [] && s.emps == [] && s.obstacles == [] && s.gravities == []
  {
    World(0, InitialScore, NewBird(w, h), [], [], [], [], [], [], [], [])
  }

  /** The events of one tick, already decoded. */
  datatype Event = QuitEvent | KeyDown(key: Key) | OtherEvent

  /** Values from outside the core for one tick: the random draws and the
      sizes of the images involved. `bombDraw(i)` serves the i-th enemy. */
  datatype Env = Env(
    enemy: Enemies.EnemyDraw,
    gapStart: int,
    bombDraw: nat -> BombDraw,
    shieldSize: (nat, nat),
    beamSize: (nat, nat))

  /** The ranges `random.randint` guarantees. */
  ghost predicate ValidEnv(env: Env) {
    && Enemies.ValidDraw(env.enemy)
    && 0 <= env.gapStart <= Obstacles.MaxGapStart
    && forall i :: ValidBombDraw(env.bombDraw(i))
  }

  /** How a run ends: the quit event, the exception raised by a shield
      bought before the player ever moved, or a fatal hit. */
  datatype End = Quit | Crash | GameOver

  datatype Outcome = Running(w: World) | Ended(why: End, w: World)

  function EnemyBox(e: Enemies.Enemy): Rect { e.rect }
  function BombBox(b: Bomb): Rect { b.rect }
  function BeamBox(b: Beam): Rect { b.rect }
  function FieldBox(f: Field): Rect { f.rect }
  function ObstacleBox(o: Obstacles.Obstacle): Rect { o.rect }

  // ----- Input and abilities -----

  /** The shield placed one player size away in the remembered direction. */
  function NewShield(b: Bird, d: (int, int), size: (nat, nat)): (s: Field)
    ensures s.rect.CenterX() == b.rect.CenterX() + d.0 * b.rect.w
    ensures s.rect.CenterY() == b.rect.CenterY() + d.1 * b.rect.h
    ensures s.rect.w == size.0 && s.rect.h == size.1
    ensures s.life == ShieldLife
  {
    Field(CenteredAt(b.rect.CenterX() + d.0 * b.rect.w, b.rect.CenterY() + d.1 * b.rect.h, size.0, size.1), ShieldLife)
  }

  /** The EMP: every enemy loses its bomb period, every bomb is disarmed and
      slowed, and a field with life 10 joins the EMP group. */
  function Emp(w: World): (r: World)
    ensures |r.emys| == |w.emys| && forall i :: 0 <= i < |w.emys| ==> r.emys[i] == Enemies.Disable(w.emys[i])
    ensures |r.bombs| == |w.bombs| && forall i :: 0 <= i < |w.bombs| ==> r.bombs[i] == Disarm(w.bombs[i])
    ensures r.emps == w.emps + [Field(Screen, EmpLife)]
    ensures r == w.(emys := r.emys, bombs := r.bombs, emps := r.emps)
  {
    w.(emys := seq(|w.emys|, i requires 0 <= i < |w.emys| => Enemies.Disable(w.emys[i])),
       bombs := seq(|w.bombs|, i requires 0 <= i < |w.bombs| => Disarm(w.bombs[i])),
       emps := w.emps + [Field(Screen, EmpLife)])
  }

  /** The key-down actions: a beam for free, and the three bought abilities,
      each only when affordable (the shield also only when none exists). */
  function KeyAction(w: World, k: Key, env: Env): (o: Outcome)
    ensures o.w.score <= w.score && (w.score >= 0 ==> o.w.score >= 0)
    ensures o.w.tmr == w.tmr
    ensures o.Ended? ==> o.why == Crash
  {
    match k
    case Space => Running(w.(beams := w.beams + [Fire(w.bird.rect, env.beamSize.0, env.beamSize.1)]))
    case KeyS =>
      if w.score >= ShieldCost && |w.shields| == 0 then
        var paid := w.(score := Pay(w.score, ShieldCost));
        match w.bird.dire
        case None => Ended(Crash, paid)
        case Some(d) => Running(paid.(shields := w.shields + [NewShield(w.bird, d, env.shieldSize)]))
      else Running(w)
    case Return =>
      if w.score >= GravityCost then
        Running(w.(gravities := w.gravities + [Field(Screen, GravityLife)], score := Pay(w.score, GravityCost)))
      else Running(w)
    case KeyE =>
      if w.score >= EmpCost then Running(Emp(w.(score := Pay(w.score, EmpCost))))
      else Running(w)
    case _ => Running(w)
  }

  /** The hyper purchase, checked once per event while right shift is held. */
  function HyperCheck(w: World, pressed: set<Key>): (r: World)
    ensures r.score <= w.score && (w.score >= 0 ==> r.score >= 0)
    ensures r.tmr == w.tmr
    ensures r == w <==> RShift !in pressed || w.score < HyperCost
    ensures r != w ==> r.score == w.score - HyperCost && r.bird == Activate(w.bird)
  {
    if RShift in pressed && w.score >= HyperCost then
      w.(score := Pay(w.score, HyperCost), bird := Activate(w.bird))
    else w
  }

  /** One event: quit ends the run at once; any other event runs its key
      action and then the hyper check. */
  function HandleEvent(w: World, e: Event, pressed: set<Key>, env: Env): (o: Outcome)
    ensures o.w.score <= w.score && (w.score >= 0 ==> o.w.score >= 0)
    ensures o.w.tmr == w.tmr
    ensures o.Ended? <==> e.QuitEvent? || (e.KeyDown? && KeyAction(w, e.key, env).Ended?)
    ensures o.Ended? && o.why == Quit <==> e.QuitEvent?
  {
    if e.QuitEvent? then Ended(Quit, w)
    else
      var o := if e.KeyDown? then KeyAction(w, e.key, env) else Running(w);
      match o
      case Ended(_, _) => o
      case Running(w1) => Running(HyperCheck(w1, pressed))
  }

  /** All events of a tick, in order, stopping at the first that ends the run. */
  function HandleEvents(w: World, es: seq<Event>, pressed: set<Key>, env: Env): (o: Outcome)
    ensures o.w.score <= w.score && (w.score >= 0 ==> o.w.score >= 0)
    ensures o.w.tmr == w.tmr
    decreases |es|
  {
    if |es| == 0 then Running(w)
    else
      match HandleEvent(w, es[0], pressed, env)
      case Ended(why, w1) => Ended(why, w1)
      case Running(w1) => HandleEvents(w1, es[1..], pressed, env)
  }

  // ----- Spawning -----

  /** The bombs dropped this tick by enemies `i` onwards, in group order. */
  function DropsFrom(emys: seq<Enemies.Enemy>, i: nat, tmr: nat, draw: nat -> BombDraw): (bs: seq<Bomb>)
    requires i <= |emys|
    ensures |bs| <= |emys| - i
    ensures forall b :: b in bs ==> b.state == Armed
    ensures |bs| == Seqs.Count(emys[i..], e => Enemies.DropDue(e, tmr))
    ensures forall b :: b in bs ==>
      exists k :: i <= k < |emys| && Enemies.DropDue(emys[k], tmr) && b == Drop(emys[k], draw(k))
    ensures forall k :: i <= k < |emys| && Enemies.DropDue(emys[k], tmr) ==> Drop(emys[k], draw(k)) in bs
    decreases |emys| - i
  {
    if i == |emys| then []
    else
      assert emys[i..][1..] == emys[i + 1..];
      var now := if Enemies.DropDue(emys[i], tmr) then [Drop(emys[i], draw(i))] else [];
      var later := DropsFrom(emys, i + 1, tmr, draw);
      assert forall b :: b in now + later ==> b in now || b in later;
      now + later
  }

  /** The spawn schedule: an enemy every 200 ticks, a wall every 225 ticks,
      then a bomb from every holding enemy whose period divides the tick. */
  function Spawn(w: World, env: Env): (r: World)
    ensures r.tmr == w.tmr && r.score == w.score && r.bird == w.bird
    ensures r.beams == w.beams && r.exps == w.exps && r.shields == w.shields
    ensures r.emps == w.emps && r.gravities == w.gravities
    ensures r.emys == if w.tmr % 200 == 0 then w.emys + [Enemies.Spawn(env.enemy)] else w.emys
    ensures r.obstacles == if w.tmr % 225 == 0 then w.obstacles + Obstacles.Wall(env.gapStart) else w.obstacles
    ensures r.bombs == w.bombs + DropsFrom(r.emys, 0, w.tmr, env.bombDraw)
  {
    var emys := if w.tmr % 200 == 0 then w.emys + [Enemies.Spawn(env.enemy)] else w.emys;
    var obstacles := if w.tmr % 225 == 0 then w.obstacles + Obstacles.Wall(env.gapStart) else w.obstacles;
    w.(emys := emys, obstacles := obstacles, bombs := w.bombs + DropsFrom(emys, 0, w.tmr, env.bombDraw))
  }

  // ----- Collisions -----

  /** What the gravity fields sweep away this tick, field by field. */
  datatype Swept = Swept(bombs: seq<Bomb>, emys: seq<Enemies.Enemy>, exps: seq<Explosion>)

  /** Each live gravity field in turn destroys the bombs, then the enemies,
      overlapping it, with an explosion each and no score. */
  function GravityPass(gs: seq<Field>, bombs: seq<Bomb>, emys: seq<Enemies.Enemy>): (r: Swept)
    ensures forall b :: b in r.bombs ==> b in bombs
    ensures forall e :: e in r.emys ==> e in emys
    ensures forall g, b :: g in gs && b in r.bombs ==> !Overlap(g.rect, b.rect)
    ensures forall g, e :: g in gs && e in r.emys ==> !Overlap(g.rect, e.rect)
    ensures forall x :: x in r.exps ==> x.life == BombExplosionLife || x.life == EnemyExplosionLife
    ensures |r.bombs| <= |bombs| && |r.emys| <= |emys|
    ensures forall b :: b in bombs && (forall g :: g in gs ==> !Overlap(g.rect, b.rect)) ==> b in r.bombs
    ensures forall e :: e in emys && (forall g :: g in gs ==> !Overlap(g.rect, e.rect)) ==> e in r.emys
    ensures |r.exps| == (|bombs| - |r.bombs|) + (|emys| - |r.emys|)
    decreases |gs|
  {
    if |gs| == 0 then Swept(bombs, emys, [])
    else
      var hb := SpriteCollide(gs[0].rect, bombs, BombBox);
      var he := SpriteCollide(gs[0].rect, emys, EnemyBox);
      var sub := GravityPass(gs[1..], hb.1, he.1);
      assert forall g :: g in gs ==> g == gs[0] || g in gs[1..];
      Swept(sub.bombs, sub.emys, Blasts(hb.0, BombBox, BombExplosionLife) + Blasts(he.0, EnemyBox, EnemyExplosionLife) + sub.exps)
  }

  predicate IsArmed(b: Bomb) {
    b.state == Armed
  }

  /** The loop over the bombs touching the player: inactive ones are simply
      gone; in hyper mode each armed one explodes for a point; in normal
      mode the first armed one ends the run (`None`). */
  function PlayerBombs(hits: seq<Bomb>, hyper: bool): (r: Option<seq<Bomb>>)
    ensures r.None? <==> !hyper && exists b :: b in hits && b.state == Armed
    ensures r.Some? ==> forall b :: b in r.value ==> b in hits && b.state == Armed
    ensures r.Some? && hyper ==> |r.value| == Seqs.Count(hits, IsArmed)
    ensures r.Some? && !hyper ==> r.value == []
    decreases |hits|
  {
    if |hits| == 0 then Some([])
    else
      assert forall i :: 1 <= i < |hits| ==> hits[i] == hits[1..][i - 1];
      var rest := PlayerBombs(hits[1..], hyper);
      if hits[0].state == Inactive then rest
      else if hyper then
        match rest
        case None => None
        case Some(bs) =>
          assert hits[0].state == Armed;
          assert forall b :: b in hits[1..] ==> b in hits;
          assert forall b :: b in [hits[0]] + bs ==> b == hits[0] || b in bs;
          Some([hits[0]] + bs)
      else
        assert hits[0].state == Armed;
        None
  }

  /** What every collision phase keeps: it only removes enemies, adds
      explosions of the two standard lives, raises the score, and leaves the
      player, the timers and the tick alone. */
  predicate CollisionStep(w: World, r: World) {
    && r.score >= w.score
    && r.tmr == w.tmr && r.bird == w.bird
    && r.shields == w.shields && r.gravities == w.gravities && r.emps == w.emps
    && (forall e :: e in r.emys ==> e in w.emys)
    && (forall x :: x in r.exps ==> x in w.exps || x.life == BombExplosionLife || x.life == EnemyExplosionLife)
  }

  /** Phase 1: every enemy touching a beam still present at its turn is
      destroyed, with the beams it touches, for 10 points and an explosion. */
  function BeamsOnEnemies(w: World): (r: World)
    ensures CollisionStep(w, r)
    ensures r.obstacles == w.obstacles && r.bombs == w.bombs
    ensures forall b :: b in r.beams ==> b in w.beams
    ensures r.score == w.score + EnemyReward * (|w.emys| - |r.emys|)
    ensures |r.exps| - |w.exps| == |w.emys| - |r.emys|
    ensures forall e, b :: e in r.emys && b in r.beams ==> !Overlap(e.rect, b.rect)
    ensures forall e :: e in w.emys && (forall b :: b in w.beams ==> !Overlap(e.rect, b.rect)) ==> e in r.emys
    ensures forall b :: b in w.beams && (forall e :: e in w.emys ==> !Overlap(e.rect, b.rect)) ==> b in r.beams
  {
    var p1 := GroupCollide(w.emys, w.beams, EnemyBox, BeamBox, true);
    KeptTouchNothing(w.emys, w.beams, EnemyBox, BeamBox, true);
    forall e, b | e in p1.kept && b in p1.rest ensures !Overlap(e.rect, b.rect) {
      assert !Overlap(EnemyBox(e), BeamBox(b));
    }
    forall e | e in w.emys && (forall b :: b in w.beams ==> !Overlap(e.rect, b.rect)) ensures e in p1.kept {
      assert forall b :: b in w.beams ==> !Overlap(EnemyBox(e), BeamBox(b));
      UntouchedKept(w.emys, w.beams, EnemyBox, BeamBox, true, e);
    }
    forall b | b in w.beams && (forall e :: e in w.emys ==> !Overlap(e.rect, b.rect)) ensures b in p1.rest {
      assert forall e :: e in w.emys ==> !Overlap(EnemyBox(e), BeamBox(b));
      UntouchedRemains(w.emys, w.beams, EnemyBox, BeamBox, true, b);
    }
    var blasts := Blasts(p1.hit, EnemyBox, EnemyExplosionLife);
    assert forall x :: x in w.exps + blasts ==> x in w.exps || x.life == EnemyExplosionLife;
    w.(emys := p1.kept, beams := p1.rest, exps := w.exps + blasts, score := w.score + EnemyReward * |p1.hit|)
  }

  /** Phase 2: every bomb touching a remaining beam is destroyed, with the
      beams it touches, for a point and an explosion. */
  function BeamsOnBombs(w: World): (r: World)
    ensures CollisionStep(w, r)
    ensures r.obstacles == w.obstacles && r.emys == w.emys
    ensures forall x :: x in r.bombs ==> x in w.bombs
    ensures forall b :: b in r.beams ==> b in w.beams
    ensures r.score == w.score + BombReward * (|w.bombs| - |r.bombs|)
    ensures |r.exps| - |w.exps| == |w.bombs| - |r.bombs|
    ensures forall x, b :: x in r.bombs && b in r.beams ==> !Overlap(x.rect, b.rect)
    ensures forall x :: x in w.bombs && (forall b :: b in w.beams ==> !Overlap(x.rect, b.rect)) ==> x in r.bombs
    ensures forall b :: b in w.beams && (forall x :: x in w.bombs ==> !Overlap(x.rect, b.rect)) ==> b in r.beams
  {
    var p2 := GroupCollide(w.bombs, w.beams, BombBox, BeamBox, true);
    KeptTouchNothing(w.bombs, w.beams, BombBox, BeamBox, true);
    forall x, b | x in p2.kept && b in p2.rest ensures !Overlap(x.rect, b.rect) {
      assert !Overlap(BombBox(x), BeamBox(b));
    }
    forall x | x in w.bombs && (forall b :: b in w.beams ==> !Overlap(x.rect, b.rect)) ensures x in p2.kept {
      assert forall b :: b in w.beams ==> !Overlap(BombBox(x), BeamBox(b));
      UntouchedKept(w.bombs, w.beams, BombBox, BeamBox, true, x);
    }
    forall b | b in w.beams && (forall x :: x in w.bombs ==> !Overlap(x.rect, b.rect)) ensures b in p2.rest {
      assert forall x :: x in w.bombs ==> !Overlap(BombBox(x), BeamBox(b));
      UntouchedRemains(w.bombs, w.beams, BombBox, BeamBox, true, b);
    }
    var blasts := Blasts(p2.hit, BombBox, BombExplosionLife);
    assert forall x :: x in w.exps + blasts ==> x in w.exps || x.life == BombExplosionLife;
    w.(bombs := p2.kept, beams := p2.rest, exps := w.exps + blasts, score := w.score + BombReward * |p2.hit|)
  }

  /** Phase 3: every bomb touching a shield is destroyed for a point and an
      explosion; the shields stay. */
  function ShieldsOnBombs(w: World): (r: World)
    ensures CollisionStep(w, r)
    ensures r.obstacles == w.obstacles && r.emys == w.emys && r.beams == w.beams
    ensures forall x :: x in r.bombs ==> x in w.bombs
    ensures r.score == w.score + BombReward * (|w.bombs| - |r.bombs|)
    ensures |r.exps| - |w.exps| == |w.bombs| - |r.bombs|
    ensures forall x, s :: x in r.bombs && s in r.shields ==> !Overlap(x.rect, s.rect)
    ensures forall x :: x in w.bombs && (forall s :: s in w.shields ==> !Overlap(x.rect, s.rect)) ==> x in r.bombs
  {
    var p3 := GroupCollide(w.bombs, w.shields, BombBox, FieldBox, false);
    KeptTouchNothing(w.bombs, w.shields, BombBox, FieldBox, false);
    assert p3.rest == w.shields;
    forall x, f | x in p3.kept && f in w.shields ensures !Overlap(x.rect, f.rect) {
      assert !Overlap(BombBox(x), FieldBox(f));
    }
    forall x | x in w.bombs && (forall s :: s in w.shields ==> !Overlap(x.rect, s.rect)) ensures x in p3.kept {
      assert forall s :: s in w.shields ==> !Overlap(BombBox(x), FieldBox(s));
      UntouchedKept(w.bombs, w.shields, BombBox, FieldBox, false, x);
    }
    var blasts := Blasts(p3.hit, BombBox, BombExplosionLife);
    assert forall x :: x in w.exps + blasts ==> x in w.exps || x.life == BombExplosionLife;
    w.(bombs := p3.kept, exps := w.exps + blasts, score := w.score + BombReward * |p3.hit|)
  }

  /** Phases 1 to 3 in order: afterwards no enemy or bomb touches a beam and
      no bomb touches a shield; each removed enemy scored 10 and each
      removed bomb 1, with one explosion each. */
  function ShootDown(w: World): (r: World)
    ensures CollisionStep(w, r)
    ensures r.obstacles == w.obstacles
    ensures r.score == w.score + EnemyReward * (|w.emys| - |r.emys|) + BombReward * (|w.bombs| - |r.bombs|)
    ensures |r.exps| - |w.exps| == (|w.emys| - |r.emys|) + (|w.bombs| - |r.bombs|)
    ensures forall x :: x in r.bombs ==> x in w.bombs
    ensures forall b :: b in r.beams ==> b in w.beams
    ensures forall e, b :: e in r.emys && b in r.beams ==> !Overlap(e.rect, b.rect)
    ensures forall x, b :: x in r.bombs && b in r.beams ==> !Overlap(x.rect, b.rect)
    ensures forall x, s :: x in r.bombs && s in r.shields ==> !Overlap(x.rect, s.rect)
    ensures forall e :: e in w.emys && (forall b :: b in w.beams ==> !Overlap(e.rect, b.rect)) ==> e in r.emys
    ensures forall x :: x in w.bombs && (forall b :: b in w.beams ==> !Overlap(x.rect, b.rect)) ==>
      (forall s :: s in w.shields ==> !Overlap(x.rect, s.rect)) ==> x in r.bombs
    ensures forall b :: b in w.beams && (forall e :: e in w.emys ==> !Overlap(e.rect, b.rect)) ==>
      (forall x :: x in w.bombs ==> !Overlap(x.rect, b.rect)) ==> b in r.beams
  {
    var w1 := BeamsOnEnemies(w);
    var w2 := BeamsOnBombs(w1);
    forall x | x in w.bombs && (forall b :: b in w.beams ==> !Overlap(x.rect, b.rect)) ensures x in w2.bombs {
      assert forall b :: b in w1.beams ==> !Overlap(x.rect, b.rect);
    }
    ShieldsOnBombs(w2)
  }

  /** Phase 4: the gravity fields sweep bombs and enemies, without score. */
  function Sweep(w: World): (r: World)
    ensures CollisionStep(w, r)
    ensures r.obstacles == w.obstacles && r.score == w.score
    ensures forall b :: b in w.bombs && (forall g :: g in w.gravities ==> !Overlap(g.rect, b.rect)) ==> b in r.bombs
    ensures forall e :: e in w.emys && (forall g :: g in w.gravities ==> !Overlap(g.rect, e.rect)) ==> e in r.emys
    ensures |r.exps| - |w.exps| == (|w.bombs| - |r.bombs|) + (|w.emys| - |r.emys|)
    ensures forall g, b :: g in w.gravities && b in r.bombs ==> !Overlap(g.rect, b.rect)
    ensures forall g, e :: g in w.gravities && e in r.emys ==> !Overlap(g.rect, e.rect)
  {
    var g := GravityPass(w.gravities, w.bombs, w.emys);
    w.(emys := g.emys, bombs := g.bombs, exps := w.exps + g.exps)
  }

  /** An armed bomb touches the player. */
  predicate ArmedContact(w: World) {
    exists b :: b in w.bombs && b.state == Armed && Overlap(w.bird.rect, b.rect)
  }

  /** An obstacle touches the player. */
  predicate ObstacleContact(w: World) {
    exists ob :: ob in w.obstacles && Overlap(w.bird.rect, ob.rect)
  }

  /** The player-contact rule of phases 5 and 6: a normal player touched by
      an armed bomb or by any obstacle is lost. */
  predicate Fatal(w: World) {
    w.bird.mode == Normal && (ArmedContact(w) || ObstacleContact(w))
  }

  /** Whether a bomb is armed and touches the player. */
  function ArmedTouching(w: World): Bomb -> bool {
    (b: Bomb) => b.state == Armed && Overlap(w.bird.rect, b.rect)
  }

  /** The armed bombs touching the player, the ones that score in hyper mode. */
  function ArmedHits(w: World): (n: nat)
    ensures n == 0 <==> !ArmedContact(w)
  {
    var n := Seqs.Count(w.bombs, ArmedTouching(w));
    assert n > 0 ==> ArmedContact(w);
    assert ArmedContact(w) ==> n > 0 by {
      if ArmedContact(w) {
        var b :| b in w.bombs && b.state == Armed && Overlap(w.bird.rect, b.rect);
        var i :| 0 <= i < |w.bombs| && w.bombs[i] == b;
      }
    }
    n
  }

  /** The armed bombs among those touching the player are the armed hits. */
  lemma ArmedHitsSelected(w: World)
    ensures Seqs.Count(SpriteCollide(w.bird.rect, w.bombs, BombBox).0, IsArmed) == ArmedHits(w)
  {
    CountTouching(w.bird.rect, w.bombs, BombBox, IsArmed, ArmedTouching(w));
  }

  /** Phase 5: the bombs touching the player are removed; inactive ones
      simply vanish; in hyper mode each armed one explodes for a point; in
      normal mode an armed one is fatal (`true`), and the world is left as
      it was when the loop returned. */
  function BombsOnPlayer(w: World): (r: (bool, World))
    ensures r.0 <==> w.bird.mode == Normal && ArmedContact(w)
    ensures CollisionStep(w, r.1) && r.1.obstacles == w.obstacles && r.1.emys == w.emys && r.1.beams == w.beams
    ensures forall b :: b in r.1.bombs <==> b in w.bombs && !Overlap(w.bird.rect, b.rect)
    ensures r.1.score - w.score == |r.1.exps| - |w.exps|
    ensures w.bird.mode == Hyper ==> r.1.score == w.score + BombReward * ArmedHits(w)
    ensures w.bird.mode == Normal ==> r.1.score == w.score
  {
    var hb := SpriteCollide(w.bird.rect, w.bombs, BombBox);
    var w5 := w.(bombs := hb.1);
    ArmedHitsSelected(w);
    assert forall b :: b in w.bombs ==> exists i :: 0 <= i < |w.bombs| && w.bombs[i] == b;
    match PlayerBombs(hb.0, w.bird.mode == Hyper)
    case None =>
      assert w.bird.mode == Normal;
      var i :| 0 <= i < |hb.0| && hb.0[i].state == Armed;
      assert IsArmed(hb.0[i]);
      (true, w5)
    case Some(burst) =>
      (false, w5.(exps := w5.exps + Blasts(burst, BombBox, BombExplosionLife), score := w5.score + BombReward * |burst|))
  }

  /** Phase 6: the obstacles touching the player are removed; in hyper mode
      each explodes for a point; in normal mode any of them ends the run. */
  function ObstaclesOnPlayer(w: World): (o: Outcome)
    ensures o.Ended? <==> w.bird.mode == Normal && ObstacleContact(w)
    ensures o.Ended? ==> o.why == GameOver
    ensures CollisionStep(w, o.w) && o.w.bombs == w.bombs
    ensures forall ob :: ob in o.w.obstacles <==> ob in w.obstacles && !Overlap(w.bird.rect, ob.rect)
    ensures o.Running? ==> o.w.score - w.score == |o.w.exps| - |w.exps|
    ensures o.Running? ==> o.w.score == w.score + ObstacleReward * (|w.obstacles| - |o.w.obstacles|)
  {
    var ho := SpriteCollide(w.bird.rect, w.obstacles, ObstacleBox);
    var w7 := w.(obstacles := ho.1);
    assert forall ob :: ob in w.obstacles ==> exists i :: 0 <= i < |w.obstacles| && w.obstacles[i] == ob;
    if |ho.0| > 0 && w.bird.mode != Hyper then
      assert w.bird.mode == Normal;
      assert ho.0[0] in w.obstacles && Overlap(w.bird.rect, ObstacleBox(ho.0[0]));
      Ended(GameOver, w7)
    else
      Running(w7.(exps := w7.exps + Blasts(ho.0, ObstacleBox, BombExplosionLife),
                  score := w7.score + ObstacleReward * |ho.0|))
  }

  /** Phases 5 and 6 in order: the run ends exactly when a normal player
      touches an armed bomb or an obstacle. */
  function HitPlayer(w: World): (o: Outcome)
    ensures CollisionStep(w, o.w)
    ensures o.Ended? ==> o.why == GameOver && w.bird.mode == Normal
    ensures o.Ended? <==> Fatal(w)
    ensures forall b :: b in o.w.bombs <==> b in w.bombs && !Overlap(w.bird.rect, b.rect)
    ensures o.Running? ==> forall ob :: ob in o.w.obstacles <==> ob in w.obstacles && !Overlap(w.bird.rect, ob.rect)
    ensures o.Running? ==> o.w.score - w.score == |o.w.exps| - |w.exps|
    ensures o.Running? && w.bird.mode == Hyper ==>
      o.w.score == w.score + BombReward * ArmedHits(w) + ObstacleReward * (|w.obstacles| - |o.w.obstacles|)
  {
    var (fatal, w5) := BombsOnPlayer(w);
    if fatal then Ended(GameOver, w5)
    else
      assert ObstacleContact(w5) <==> ObstacleContact(w);
      ObstaclesOnPlayer(w5)
  }

  /** The six collision phases in their fixed order. */
  function Collide(w: World): (o: Outcome)
    ensures CollisionStep(w, o.w)
    ensures o.Ended? ==> o.why == GameOver && w.bird.mode == Normal
    ensures o.Ended? <==> Fatal(Sweep(ShootDown(w)))
    ensures w.bird.mode == Normal && ObstacleContact(w) ==> o.Ended?
  {
    HitPlayer(Sweep(ShootDown(w)))
  }

  // ----- Updates -----

  function UpdateEnemies(es: seq<Enemies.Enemy>): (r: seq<Enemies.Enemy>)
    ensures |r| == |es| && forall i :: 0 <= i < |es| ==> r[i] == Enemies.Update(es[i])
  {
    seq(|es|, i requires 0 <= i < |es| => Enemies.Update(es[i]))
  }

  /** The update phase, in the source's order, and the tick count. The EMP
      group is not updated inside the loop. */
  function Advance(w: World, pressed: set<Key>): (r: World)
    ensures r.tmr == w.tmr + 1 && r.score == w.score
    ensures r.bird == Player.Update(w.bird, pressed)
    ensures forall b :: b in r.bombs ==> Inside(b.rect)
    ensures forall b :: b in r.beams ==> Inside(b.rect)
    ensures r.emps == w.emps
    ensures r.obstacles == Seqs.FilterMap(w.obstacles, Obstacles.Update)
    ensures r.gravities == TickFields(w.gravities) && r.shields == TickFields(w.shields)
    ensures r.exps == TickExplosions(w.exps) && r.emys == UpdateEnemies(w.emys)
    ensures r.bombs == UpdateBombs(w.bombs) && r.beams == UpdateBeams(w.beams)
  {
    w.(obstacles := Seqs.FilterMap(w.obstacles, Obstacles.Update),
       gravities := TickFields(w.gravities),
       bird := Player.Update(w.bird, pressed),
       beams := UpdateBeams(w.beams),
       emys := UpdateEnemies(w.emys),
       bombs := UpdateBombs(w.bombs),
       exps := TickExplosions(w.exps),
       shields := TickFields(w.shields),
       tmr := w.tmr + 1)
  }

  /** One iteration of the main loop. */
  function Step(w: World, events: seq<Event>, pressed: set<Key>, env: Env): (o: Outcome)
    ensures o.Running? ==> o.w.tmr == w.tmr + 1
    ensures o.Ended? ==> o.w.tmr == w.tmr
    ensures w.score >= 0 ==> o.w.score >= 0
  {
    match HandleEvents(w, events, pressed, env)
    case Ended(why, w1) => Ended(why, w1)
    case Running(w1) =>
      match Collide(Spawn(w1, env))
      case Ended(why, w3) => Ended(why, w3)
      case Running(w3) => Running(Advance(w3, pressed))
  }
}

=== FILE: game_properties.dfy ===
/** Properties of whole ticks: the world invariant every running tick keeps
    (score never negative, player inside the arena, enemy state machines
    well formed, at most one shield, ...), and the behaviour promised for
    particular situations. */
module GameProperties {
  import opened Wrappers
  import opened Arena
  import Seqs
  import opened Timers
  import opened Player
  import Enemies
  import Obstacles
  import opened Projectiles
  import opened Collisions
  import opened Economy
  import opened Game

  /** What holds between the phases of a tick. */
  predicate Core(w: World) {
    && w.score >= 0
    && Inside(w.bird.rect)
    && (w.bird.mode == Hyper ==> 0 <= w.bird.hyperLife <= HyperDuration)
    && (forall e :: e in w.emys ==> Enemies.Valid(e))
    && |w.shields| <= 1
    && (forall f :: f in w.shields ==> f.life >= 0)
    && (forall f :: f in w.gravities ==> f.life >= 0)
    && (forall f :: f in w.emps ==> f.life == EmpLife)
    && (forall x :: x in w.exps ==> x.life >= 0)
  }

  /** What holds between ticks: in addition, every bomb and beam is inside
      the arena. Enemies and obstacles are never bound-checked. */
  predicate Valid(w: World) {
    && Core(w)
    && (forall b :: b in w.bombs ==> Inside(b.rect))
    && (forall b :: b in w.beams ==> Inside(b.rect))
  }

  /** The world before the first tick is valid for any player image that
      fits the arena around (900, 400). */
  lemma StartValid(bw: nat, bh: nat)
    requires bw <= 400 && bh <= 500
    ensures Valid(Start(bw, bh))
  {
  }

  lemma KeyActionKeepsCore(w: World, k: Key, env: Env)
    requires Core(w)
    ensures Core(KeyAction(w, k, env).w)
  {
    if k == KeyE && w.score >= EmpCost {
      var r := Emp(w.(score := w.score - EmpCost));
      forall e | e in r.emys ensures Enemies.Valid(e) {
        var i :| 0 <= i < |r.emys| && r.emys[i] == e;
        assert w.emys[i] in w.emys;
      }
    }
  }

  /** Events and purchases keep the invariant: in particular no sequence of
      purchases takes the score below zero. */
  lemma {:induction false} HandleEventsKeepsCore(w: World, es: seq<Event>, pressed: set<Key>, env: Env)
    requires Core(w)
    ensures Core(HandleEvents(w, es, pressed, env).w)
    decreases |es|
  {
    if |es| > 0 {
      var e := es[0];
      if e.KeyDown? {
        KeyActionKeepsCore(w, e.key, env);
      }
      match HandleEvent(w, e, pressed, env)
      case Ended(_, _) =>
      case Running(w1) => HandleEventsKeepsCore(w1, es[1..], pressed, env);
    }
  }

  lemma SpawnKeepsCore(w: World, env: Env)
    requires Core(w) && ValidEnv(env)
    ensures Core(Spawn(w, env))
  {
  }

  lemma CollideKeepsCore(w: World)
    requires Core(w)
    ensures Core(Collide(w).w)
  {
  }

  lemma AdvanceMakesValid(w: World, pressed: set<Key>)
    requires Core(w)
    ensures Valid(Advance(w, pressed))
  {
    var r := Advance(w, pressed);
    forall e | e in r.emys ensures Enemies.Valid(e) {
      var i :| 0 <= i < |r.emys| && r.emys[i] == e;
      assert w.emys[i] in w.emys;
    }
  }

  /** Every tick that keeps running keeps the world valid, and whatever the
      outcome, the score is never negative. */
  lemma StepKeepsValid(w: World, events: seq<Event>, pressed: set<Key>, env: Env)
    requires Valid(w) && ValidEnv(env)
    ensures Step(w, events, pressed, env).Running? ==> Valid(Step(w, events, pressed, env).w)
    ensures Step(w, events, pressed, env).w.score >= 0
  {
    HandleEventsKeepsCore(w, events, pressed, env);
    match HandleEvents(w, events, pressed, env)
    case Ended(_, _) =>
    case Running(w1) =>
      SpawnKeepsCore(w1, env);
      CollideKeepsCore(Spawn(w1, env));
      match Collide(Spawn(w1, env))
      case Ended(_, _) =>
      case Running(w3) => AdvanceMakesValid(w3, pressed);
  }
}

=== FILE: obstacles.dfy ===
/** Obstacles: 50-unit tiles that scroll left and are generated as walls of
    thirteen slots with one three-slot gap. */
module Obstacles {
  import opened Wrappers
  import opened Arena

  /** Side of a tile and spacing of the wall slots. */
  const Tile: int := 50
  /** The slots `range(0, HEIGHT, 50)`: 0, 50, ..., 600. */
  const Slots: nat := 13
  /** Height of the gap band, and the largest gap start `HEIGHT - 150`. */
  const GapHeight: int := 150
  const MaxGapStart: int := Height - GapHeight
  /** Leftward speed. */
  const Drift: int := 6

  datatype Obstacle = Obstacle(rect: Rect)

  /** A tile centred at (`Width + 50`, y). */
  function Spawn(y: int): (o: Obstacle)
    ensures o.rect.CenterX() == Width + 50 && o.rect.CenterY() == y
    ensures o.rect.w == Tile && o.rect.h == Tile
    ensures !Inside(o.rect)
  {
    Obstacle(CenteredAt(Width + 50, y, Tile, Tile))
  }

  /** The y of slot `k`. */
  function SlotY(k: int): int {
    50 * k
  }

  lemma SlotsCoverHeight()
    ensures SlotY(Slots - 1) < Height <= SlotY(Slots)
  {
  }

  predicate InGap(y: int, gapStart: int) {
    gapStart <= y < gapStart + GapHeight
  }

  /** The centre heights of the tiles of slots `k` up to the last, top to
      bottom, skipping the slots that fall in the gap. */
  function RowsFrom(k: nat, gapStart: int): (ys: seq<int>)
    requires k <= Slots
    ensures |ys| <= Slots - k
    ensures forall i :: 0 <= i < |ys| ==> SlotY(k) <= ys[i] < Height && ys[i] % Tile == 0
    ensures forall i :: 0 <= i < |ys| ==> !InGap(ys[i], gapStart)
    ensures forall i, j :: 0 <= i < j < |ys| ==> ys[i] < ys[j]
    decreases Slots - k
  {
    if k == Slots then []
    else
      var rest := RowsFrom(k + 1, gapStart);
      if InGap(SlotY(k), gapStart) then rest
      else
        var ys := [SlotY(k)] + rest;
        assert forall i :: 1 <= i < |ys| ==> ys[i] == rest[i - 1];
        ys
  }

  /** Every slot from `k` on that lies outside the gap is one of the rows. */
  lemma {:induction false} RowsFromCover(k: nat, gapStart: int, m: int)
    requires k <= m < Slots && !InGap(SlotY(m), gapStart)
    ensures SlotY(m) in RowsFrom(k, gapStart)
    decreases Slots - k
  {
    if m > k {
      RowsFromCover(k + 1, gapStart, m);
    }
  }

  /** `create_obstacle_wall` with gap start `gapStart`: one tile per row. */
  function Wall(gapStart: int): (ws: seq<Obstacle>)
    ensures |ws| == |RowsFrom(0, gapStart)|
    ensures forall i :: 0 <= i < |ws| ==> ws[i] == Spawn(RowsFrom(0, gapStart)[i])
  {
    var ys := RowsFrom(0, gapStart);
    seq(|ys|, i requires 0 <= i < |ys| => Spawn(ys[i]))
  }

  /** The wall's tiles sit exactly on the slots outside the gap, one tile per
      slot and in top-to-bottom order. */
  lemma WallSlots(gapStart: int, y: int)
    ensures (exists i :: 0 <= i < |Wall(gapStart)| && Wall(gapStart)[i].rect.CenterY() == y)
        <==> 0 <= y < Height && y % Tile == 0 && !InGap(y, gapStart)
    ensures forall i, j :: 0 <= i < j < |Wall(gapStart)| ==>
      Wall(gapStart)[i].rect.CenterY() < Wall(gapStart)[j].rect.CenterY()
  {
    var ys := RowsFrom(0, gapStart);
    if 0 <= y < Height && y % Tile == 0 && !InGap(y, gapStart) {
      assert y == SlotY(y / Tile);
      RowsFromCover(0, gapStart, y / Tile);
      var i :| 0 <= i < |ys| && ys[i] == y;
      assert Wall(gapStart)[i].rect.CenterY() == y;
    }
  }

  /** The first slot inside the gap: the gap start rounded up to a slot. */
  function FirstGapSlot(gapStart: int): int {
    (gapStart + Tile - 1) / Tile
  }

  /** A slot is in the gap exactly when it is one of the three slots from
      `FirstGapSlot` on. */
  lemma GapSlots(m: int, gapStart: int)
    ensures InGap(SlotY(m), gapStart) <==> FirstGapSlot(gapStart) <= m < FirstGapSlot(gapStart) + 3
  {
    var f := FirstGapSlot(gapStart);
    assert gapStart <= Tile * f < gapStart + Tile;
  }

  /** How many rows there are from slot `k` on. */
  lemma {:induction false} RowsFromSize(k: nat, gapStart: int)
    requires k <= Slots
    requires 0 <= gapStart <= MaxGapStart
    ensures var f := FirstGapSlot(gapStart);
      |RowsFrom(k, gapStart)| == Slots - k - (if k <= f then 3 else if k <= f + 3 then f + 3 - k else 0)
    decreases Slots - k
  {
    if k < Slots {
      GapSlots(k, gapStart);
      RowsFromSize(k + 1, gapStart);
    }
  }

  /** Every wall with a gap start in [0, 500] has exactly 10 tiles: three of
      the thirteen slots fall in the gap. */
  lemma WallSize(gapStart: int)
    requires 0 <= gapStart <= MaxGapStart
    ensures |Wall(gapStart)| == 10
  {
    RowsFromSize(0, gapStart);
  }

  /** `Obstacle.update`: drift left; removed once the right edge is
      negative. No other containment test applies. */
  function Update(o: Obstacle): (r: Option<Obstacle>)
    ensures r.Some? <==> o.rect.Right() >= Drift
    ensures r.Some? ==> r.value.rect == Move(o.rect, -Drift, 0)
  {
    var moved := Obstacle(Move(o.rect, -Drift, 0));
    if moved.rect.Right() < 0 then None else Some(moved)
  }

  /** `n` consecutive updates, `None` once removed. */
  function Run(o: Obstacle, n: nat): Option<Obstacle>
    decreases n
  {
    if n == 0 then Some(o)
    else match Update(o)
      case None => None
      case Some(o1) => Run(o1, n - 1)
  }

  /** An obstacle survives exactly as many updates as it takes its right
      edge to pass below zero. */
  lemma {:induction false} Lifetime(o: Obstacle, n: nat)
    requires o.rect.Right() >= 0
    ensures Run(o, n).Some? <==> Drift * n <= o.rect.Right()
    decreases n
  {
    if n > 0 && o.rect.Right() >= Drift {
      Lifetime(Obstacle(Move(o.rect, -Drift, 0)), n - 1);
    }
  }

  /** A fresh tile starts outside the arena, yet stays in play for 195
      updates and is removed by the 196th. */
  lemma SpawnedTileLifetime(y: int)
    ensures !Inside(Spawn(y).rect)
    ensures Run(Spawn(y), 195).Some? && Run(Spawn(y), 196).None?
  {
    Lifetime(Spawn(y), 195);
    Lifetime(Spawn(y), 196);
  }
}

=== FILE: player.dfy ===
/** The player ("Bird"): key-driven all-or-nothing movement, the remembered
    direction of the last real move, and the hyper-mode countdown. */
module Player {
  import opened Wrappers
  import opened Arena

  /** The logical keys the game reads. */
  datatype Key = Up | Down | Left | Right | Space | KeyS | Return | KeyE | RShift | OtherKey

  /** Units moved per tick along each pressed axis. */
  const Speed: int := 10
  /** Ticks of hyper mode bought by one activation. */
  const HyperDuration: int := 500

  datatype Mode = Normal | Hyper

  /** `dire` is `None` until the first tick with a nonzero key vector:
      the source assigns that attribute only inside `update`. */
  datatype Bird = Bird(rect: Rect, mode: Mode, hyperLife: int, dire: Option<(int, int)>)

  /** The player as created: centred on (900, 400), normal mode, with an
      image of size `w` by `h`. */
  function NewBird(w: nat, h: nat): (b: Bird)
    ensures b.rect.CenterX() == 900 && b.rect.CenterY() == 400
    ensures b.mode == Normal && b.hyperLife == HyperDuration && b.dire == None
    ensures w <= 400 && h <= 500 ==> Inside(b.rect)
  {
    Bird(CenteredAt(900, 400, w, h), Normal, HyperDuration, None)
  }

  /** The sum of the unit vectors of the pressed arrow keys. */
  function KeyVector(keys: set<Key>): (v: (int, int))
    ensures -1 <= v.0 <= 1 && -1 <= v.1 <= 1
    ensures v.0 == 0 <==> (Left in keys <==> Right in keys)
    ensures v.1 == 0 <==> (Up in keys <==> Down in keys)
    ensures v.0 == 1 <==> Right in keys && Left !in keys
    ensures v.1 == 1 <==> Down in keys && Up !in keys
  {
    ((if Right in keys then 1 else 0) - (if Left in keys then 1 else 0),
     (if Down in keys then 1 else 0) - (if Up in keys then 1 else 0))
  }

  /** Where the whole move would take the player. */
  function Target(b: Bird, keys: set<Key>): Rect {
    var v := KeyVector(keys);
    Move(b.rect, Speed * v.0, Speed * v.1)
  }

  /** `Bird.update`: try the whole move and undo all of it when the box would
      leave the arena on either axis; remember a nonzero direction; in hyper
      mode count the timer down and fall back to normal once it is negative. */
  function Update(b: Bird, keys: set<Key>): (r: Bird)
    ensures Inside(Target(b, keys)) ==> r.rect == Target(b, keys)
    ensures !Inside(Target(b, keys)) ==> r.rect == b.rect
    ensures Inside(b.rect) ==> Inside(r.rect)
    ensures KeyVector(keys) == (0, 0) ==> r.dire == b.dire
    ensures KeyVector(keys) != (0, 0) ==> r.dire == Some(KeyVector(keys))
    ensures b.mode == Normal ==> r.mode == Normal && r.hyperLife == b.hyperLife
    ensures b.mode == Hyper ==> r.hyperLife == b.hyperLife - 1 && (r.mode == Normal <==> r.hyperLife < 0)
  {
    var v := KeyVector(keys);
    var moved := Move(b.rect, Speed * v.0, Speed * v.1);
    var rect := if CheckBound(moved) != (true, true) then b.rect else moved;
    var dire := if !(v.0 == 0 && v.1 == 0) then Some(v) else b.dire;
    if b.mode == Hyper then
      var life := b.hyperLife - 1;
      Bird(rect, if life < 0 then Normal else Hyper, life, dire)
    else
      Bird(rect, b.mode, b.hyperLife, dire)
  }

  /** Pressing both keys of an axis is the same as pressing neither. */
  lemma OppositeKeysCancel(b: Bird, keys: set<Key>)
    ensures Update(b, keys + {Up, Down}) == Update(b, keys - {Up, Down})
    ensures Update(b, keys + {Left, Right}) == Update(b, keys - {Left, Right})
  {
    assert KeyVector(keys + {Up, Down}) == KeyVector(keys - {Up, Down});
    assert KeyVector(keys + {Left, Right}) == KeyVector(keys - {Left, Right});
  }

  /** A tick whose keys cancel out leaves the position and the remembered
      direction alone. */
  lemma NoMoveKeepsDirection(b: Bird, keys: set<Key>)
    requires (Up in keys <==> Down in keys) && (Left in keys <==> Right in keys)
    ensures Update(b, keys).rect == b.rect && Update(b, keys).dire == b.dire
  {
  }

  /** Hyper mode: the player it produces. */
  function Activate(b: Bird): (r: Bird)
    ensures r.mode == Hyper && r.hyperLife == HyperDuration
    ensures r.rect == b.rect && r.dire == b.dire
  {
    b.(mode := Hyper, hyperLife := HyperDuration)
  }

  /** `n` ticks without any further activation. */
  function Run(b: Bird, keys: set<Key>, n: nat): Bird
    decreases n
  {
    if n == 0 then b else Run(Update(b, keys), keys, n - 1)
  }

  /** A hyper player with `hyperLife` L stays hyper through L more updates
      and is normal from update L + 1 on: an activation buys 501 hyper ticks. */
  lemma {:induction false} HyperLasts(b: Bird, keys: set<Key>, n: nat)
    requires b.mode == Hyper && b.hyperLife >= 0
    ensures Run(b, keys, n).mode == Hyper <==> n <= b.hyperLife
    decreases n
  {
    if n > 0 {
      var b1 := Update(b, keys);
      if b1.mode == Hyper {
        HyperLasts(b1, keys, n - 1);
      } else {
        StaysNormal(b1, keys, n - 1);
      }
    }
  }

  /** Without an activation a normal player stays normal. */
  lemma {:induction false} StaysNormal(b: Bird, keys: set<Key>, n: nat)
    requires b.mode == Normal
    ensures Run(b, keys, n).mode == Normal
    decreases n
  {
    if n > 0 {
      StaysNormal(Update(b, keys), keys, n - 1);
    }
  }
}

=== FILE: projectiles.dfy ===
/** Bombs and beams: boxes moving in a straight line that are removed as
    soon as an update leaves them sticking out of the arena. */
module Projectiles {
  import opened Wrappers
  import opened Arena
  import Seqs
  import Enemies

  /** "aaa" is the tag a bomb is born with; an EMP sets "inactive". */
  datatype BombState = Armed | Inactive

  /** A bomb keeps the unit direction it was given at creation and a speed,
      both floating point in the source and exact reals here. */
  datatype Bomb = Bomb(rect: Rect, vx: real, vy: real, speed: real, state: BombState)

  /** The random radius of one bomb and the unit direction from the dropping
      enemy to the player at that instant. */
  datatype BombDraw = BombDraw(rad: nat, vx: real, vy: real)

  predicate ValidBombDraw(d: BombDraw) {
    10 <= d.rad <= 50
  }

  const BombSpeed: real := 6.0

  /** `Bomb(emy, bird)`: a disc of the drawn radius centred on the enemy's
      centre x and half an enemy height below its centre. */
  function Drop(e: Enemies.Enemy, d: BombDraw): (b: Bomb)
    ensures b.rect.CenterX() == e.rect.CenterX()
    ensures b.rect.CenterY() == e.rect.CenterY() + e.rect.h / 2
    ensures b.rect.w == 2 * d.rad && b.rect.h == 2 * d.rad
    ensures b.state == Armed && b.speed == BombSpeed && b.vx == d.vx && b.vy == d.vy
  {
    var size := 2 * d.rad;
    Bomb(CenteredAt(e.rect.CenterX(), e.rect.CenterY() + e.rect.h / 2, size, size), d.vx, d.vy, BombSpeed, Armed)
  }

  /** pygame turns a float offset into an integer by truncation toward zero. */
  function Trunc(x: real): (n: int)
    ensures x >= 0.0 ==> 0 <= n && n as real <= x < n as real + 1.0
    ensures x < 0.0 ==> n <= 0 && n as real - 1.0 < x <= n as real
  {
    if x >= 0.0 then x.Floor else -((-x).Floor)
  }

  /** `Bomb.update`: move by the truncated velocity, vanish unless inside. */
  function UpdateBomb(b: Bomb): (r: Option<Bomb>)
    ensures r.Some? ==> Inside(r.value.rect) && r.value.state == b.state && r.value.speed == b.speed
    ensures r.Some? <==> Inside(Move(b.rect, Trunc(b.speed * b.vx), Trunc(b.speed * b.vy)))
    ensures r.Some? ==> r.value == b.(rect := Move(b.rect, Trunc(b.speed * b.vx), Trunc(b.speed * b.vy)))
  {
    var moved := b.(rect := Move(b.rect, Trunc(b.speed * b.vx), Trunc(b.speed * b.vy)));
    if CheckBound(moved.rect) != (true, true) then None else Some(moved)
  }

  /** The EMP effect on one bomb: inactive and at half speed. */
  function Disarm(b: Bomb): (r: Bomb)
    ensures r.state == Inactive && r.speed * 2.0 == b.speed
    ensures r.rect == b.rect && r.vx == b.vx && r.vy == b.vy
  {
    b.(speed := b.speed / 2.0, state := Inactive)
  }

  /** A beam flies right at ten units per tick. */
  datatype Beam = Beam(rect: Rect)

  const BeamSpeed: int := 10

  /** `Beam(bird)`: its image centred one player width to the right of the
      player's centre, at the same height. */
  function Fire(bird: Rect, w: nat, h: nat): (b: Beam)
    ensures b.rect.CenterX() == bird.CenterX() + bird.w && b.rect.CenterY() == bird.CenterY()
    ensures b.rect.w == w && b.rect.h == h
  {
    Beam(CenteredAt(bird.CenterX() + bird.w, bird.CenterY(), w, h))
  }

  /** `Beam.update`. */
  function UpdateBeam(b: Beam): (r: Option<Beam>)
    ensures r.Some? <==> Inside(Move(b.rect, BeamSpeed, 0))
    ensures r.Some? ==> r.value.rect == Move(b.rect, BeamSpeed, 0)
  {
    var moved := Beam(Move(b.rect, BeamSpeed, 0));
    if CheckBound(moved.rect) != (true, true) then None else Some(moved)
  }

  /** One update of every bomb: the survivors are exactly the moved bombs
      that are still inside the arena. */
  function UpdateBombs(bs: seq<Bomb>): (r: seq<Bomb>)
    ensures |r| <= |bs|
    ensures forall b :: b in r ==> Inside(b.rect)
    ensures forall i :: 0 <= i < |bs| && UpdateBomb(bs[i]).Some? ==> UpdateBomb(bs[i]).value in r
    ensures forall j :: 0 <= j < |r| ==> exists i :: 0 <= i < |bs| && UpdateBomb(bs[i]) == Some(r[j])
  {
    Seqs.FilterMap(bs, UpdateBomb)
  }

  /** One update of every beam: the survivors are exactly the moved beams
      that are still inside the arena. */
  function UpdateBeams(bs: seq<Beam>): (r: seq<Beam>)
    ensures |r| <= |bs|
    ensures forall b :: b in r ==> Inside(b.rect)
    ensures forall i :: 0 <= i < |bs| && UpdateBeam(bs[i]).Some? ==> UpdateBeam(bs[i]).value in r
    ensures forall j :: 0 <= j < |r| ==> exists i :: 0 <= i < |bs| && UpdateBeam(bs[i]) == Some(r[j])
  {
    Seqs.FilterMap(bs, UpdateBeam)
  }
}

=== FILE: scenarios.dfy ===
/** The behaviour of the game in particular situations: purchases, the
    per-event hyper drain, the EMP, the collision phases and the spawn
    schedule. */
module Scenarios {
  import opened Wrappers
  import opened Arena
  import opened Timers
  import opened Player
  import Enemies
  import Obstacles
  import opened Projectiles
  import opened Collisions
  import opened Economy
  import opened Game

  /** A funded shield purchase costs 50 and creates the one shield; a second
      purchase while it lives does nothing. */
  lemma ShieldPurchase(w: World, pressed: set<Key>, env: Env)
    requires w.score >= ShieldCost && w.shields == [] && w.bird.dire.Some? && RShift !in pressed
    ensures HandleEvent(w, KeyDown(KeyS), pressed, env)
      == Running(w.(score := w.score - ShieldCost, shields := [NewShield(w.bird, w.bird.dire.value, env.shieldSize)]))
    ensures var w1 := HandleEvent(w, KeyDown(KeyS), pressed, env).w;
      HandleEvent(w1, KeyDown(KeyS), pressed, env) == Running(w1)
  {
  }

  /** A shield bought before the player has ever moved raises an error:
      the player has no remembered direction yet. The score is already paid. */
  lemma ShieldBeforeAnyMove(w: World, pressed: set<Key>, env: Env)
    requires w.score >= ShieldCost && w.shields == [] && w.bird.dire == None
    ensures HandleEvent(w, KeyDown(KeyS), pressed, env) == Ended(Crash, w.(score := w.score - ShieldCost))
  {
  }

  /** Firing a beam is free and adds exactly one beam. */
  lemma BeamIsFree(w: World, pressed: set<Key>, env: Env)
    requires RShift !in pressed
    ensures HandleEvent(w, KeyDown(Space), pressed, env)
      == Running(w.(beams := w.beams + [Fire(w.bird.rect, env.beamSize.0, env.beamSize.1)]))
  {
  }

  /** A funded gravity purchase costs exactly 200 and adds one field
      covering the whole arena with life 400, and nothing else. */
  lemma GravityPurchase(w: World, env: Env)
    requires w.score >= GravityCost
    ensures KeyAction(w, Return, env)
      == Running(w.(score := w.score - GravityCost, gravities := w.gravities + [Field(Screen, GravityLife)]))
  {
  }

  /** A purchase the score does not cover changes nothing at all, and
      neither does right shift without 100 points. */
  lemma UnaffordableIsNoOp(w: World, k: Key, pressed: set<Key>, env: Env)
    requires RShift !in pressed || w.score < HyperCost
    requires || (k == KeyS && (w.score < ShieldCost || |w.shields| > 0))
             || (k == Return && w.score < GravityCost)
             || (k == KeyE && w.score < EmpCost)
    ensures HandleEvent(w, KeyDown(k), pressed, env) == Running(w)
  {
  }

  /** Holding right shift charges 100 and re-arms hyper mode once per queued
      event that does not end the run, not once per tick; with no events
      nothing happens. */
  lemma {:induction false} HyperChargedPerEvent(w: World, es: seq<Event>, pressed: set<Key>, env: Env)
    requires RShift in pressed && w.score >= HyperCost * |es|
    requires forall i :: 0 <= i < |es| ==> es[i] == OtherEvent
    ensures HandleEvents(w, es, pressed, env).Running?
    ensures HandleEvents(w, es, pressed, env).w.score == w.score - HyperCost * |es|
    ensures |es| > 0 ==> HandleEvents(w, es, pressed, env).w.bird == Activate(w.bird)
    ensures |es| == 0 ==> HandleEvents(w, es, pressed, env).w == w
    decreases |es|
  {
    if |es| > 0 {
      var w1 := HyperCheck(w, pressed);
      assert HandleEvent(w, es[0], pressed, env) == Running(w1);
      HyperChargedPerEvent(w1, es[1..], pressed, env);
    }
  }

  /** The EMP costs 20, silences every enemy and disarms and slows every
      bomb, keeping all of them. */
  lemma EmpDisablesEverything(w: World, pressed: set<Key>, env: Env)
    requires w.score >= EmpCost && RShift !in pressed
    ensures HandleEvent(w, KeyDown(KeyE), pressed, env).Running?
    ensures var w1 := HandleEvent(w, KeyDown(KeyE), pressed, env).w;
      && w1.score == w.score - EmpCost
      && |w1.emys| == |w.emys| && |w1.bombs| == |w.bombs|
      && (forall e :: e in w1.emys ==> e.interval == None)
      && (forall b :: b in w1.bombs ==> b.state == Inactive)
  {
  }

  /** An enemy and a beam that overlap: both go, one 100-tick explosion
      appears where the enemy was, and the score rises by 10. */
  lemma EnemyShotDown(w: World, e: Enemies.Enemy, b: Beam)
    requires w.emys == [e] && w.beams == [b] && w.bombs == [] && Overlap(e.rect, b.rect)
    ensures var r := ShootDown(w);
      && r.emys == [] && r.beams == [] && r.score == w.score + EnemyReward
      && r.exps == w.exps + [Blast(e.rect, EnemyExplosionLife)]
  {
    var p1 := GroupCollide(w.emys, w.beams, EnemyBox, BeamBox, true);
    SpriteCollideAll(e.rect, [b], BeamBox);
    assert [e][1..] == [];
    assert GroupCollide([], [], EnemyBox, BeamBox, true) == GroupHits([], [], []);
    assert p1 == GroupHits([], [e], []);
  }

  /** Two beams on one enemy: both beams go but the enemy scores once. */
  lemma EnemyHitTwice(w: World, e: Enemies.Enemy, b1: Beam, b2: Beam)
    requires w.emys == [e] && w.beams == [b1, b2] && w.bombs == []
    requires Overlap(e.rect, b1.rect) && Overlap(e.rect, b2.rect)
    ensures var r := ShootDown(w);
      && r.emys == [] && r.beams == [] && r.score == w.score + EnemyReward
      && |r.exps| == |w.exps| + 1
  {
    var p1 := GroupCollide(w.emys, w.beams, EnemyBox, BeamBox, true);
    SpriteCollideAll(e.rect, [b1, b2], BeamBox);
    assert [e][1..] == [];
    assert GroupCollide([], [], EnemyBox, BeamBox, true) == GroupHits([], [], []);
    assert p1 == GroupHits([], [e], []);
  }

  /** Two enemies on one beam: the first takes the beam, so the second is
      kept, and the score rises by 10 only once. */
  lemma TwoEnemiesOneBeam(w: World, e1: Enemies.Enemy, e2: Enemies.Enemy, b: Beam)
    requires w.emys == [e1, e2] && w.beams == [b] && w.bombs == []
    requires Overlap(e1.rect, b.rect) && Overlap(e2.rect, b.rect)
    ensures var r := ShootDown(w);
      && r.emys == [e2] && r.beams == [] && r.score == w.score + EnemyReward
      && r.exps == w.exps + [Blast(e1.rect, EnemyExplosionLife)]
  {
    var p1 := GroupCollide(w.emys, w.beams, EnemyBox, BeamBox, true);
    SpriteCollideAll(e1.rect, [b], BeamBox);
    assert [e1, e2][1..] == [e2];
    assert [e2][1..] == [];
    assert GroupCollide([], [], EnemyBox, BeamBox, true) == GroupHits([], [], []);
    assert GroupCollide([e2], [], EnemyBox, BeamBox, true) == GroupHits([e2], [], []);
    assert p1 == GroupHits([e2], [e1], []);
  }

  /** In hyper mode an armed bomb touching the player explodes for a point
      and the run goes on. */
  lemma HyperPlayerSurvivesBomb(w: World, b: Bomb)
    requires w.bird.mode == Hyper && w.bombs == [b] && w.obstacles == []
    requires b.state == Armed && Overlap(w.bird.rect, b.rect)
    ensures HitPlayer(w) == Running(w.(bombs := [], exps := w.exps + [Blast(b.rect, BombExplosionLife)],
                                      score := w.score + BombReward))
  {
    SpriteCollideAll(w.bird.rect, [b], BombBox);
    assert PlayerBombs([b], true) == Some([b]);
  }

  /** In normal mode an armed bomb touching the player ends the run. */
  lemma NormalPlayerHitByBomb(w: World, b: Bomb)
    requires w.bird.mode == Normal && w.bombs == [b]
    requires b.state == Armed && Overlap(w.bird.rect, b.rect)
    ensures HitPlayer(w) == Ended(GameOver, w.(bombs := []))
  {
    SpriteCollideAll(w.bird.rect, [b], BombBox);
  }

  /** A disarmed bomb touching the player just disappears. */
  lemma InactiveBombIsHarmless(w: World, b: Bomb)
    requires w.bombs == [b] && w.obstacles == []
    requires b.state == Inactive && Overlap(w.bird.rect, b.rect)
    ensures HitPlayer(w) == Running(w.(bombs := []))
  {
    SpriteCollideAll(w.bird.rect, [b], BombBox);
    assert PlayerBombs([b], w.bird.mode == Hyper) == Some([]);
  }

  /** Every 200 ticks exactly one enemy appears, centred just beyond the
      right edge at the drawn height; on other ticks none does. */
  lemma EnemySchedule(w: World, env: Env)
    ensures w.tmr % 200 == 0 ==>
      && |Spawn(w, env).emys| == |w.emys| + 1
      && Spawn(w, env).emys[..|w.emys|] == w.emys
      && Spawn(w, env).emys[|w.emys|].rect.CenterX() == Width + 50
      && Spawn(w, env).emys[|w.emys|].rect.CenterY() == env.enemy.y
      && Spawn(w, env).emys[|w.emys|].state == Enemies.Advancing
    ensures w.tmr % 200 != 0 ==> Spawn(w, env).emys == w.emys
  {
  }

  /** Every 225 ticks a wall of exactly ten obstacles is appended after the
      obstacles already present. */
  lemma WallSchedule(w: World, env: Env)
    requires ValidEnv(env)
    ensures w.tmr % 225 == 0 ==> Spawn(w, env).obstacles == w.obstacles + Obstacles.Wall(env.gapStart)
    ensures w.tmr % 225 == 0 ==> |Spawn(w, env).obstacles| == |w.obstacles| + 10
    ensures w.tmr % 225 != 0 ==> Spawn(w, env).obstacles == w.obstacles
  {
    Obstacles.WallSize(env.gapStart);
  }
}

=== FILE: seqs.dfy ===
/** Order-preserving sequence helpers that the sprite groups are built on:
    a pygame group iterates its sprites in insertion order. */
module Seqs {
  import opened Wrappers

  /** Keeps, in order, the images of the elements that `f` maps to `Some`:
      one `update` over a group whose members may `kill` themselves. */
  function FilterMap<T, U>(xs: seq<T>, f: T -> Option<U>): (ys: seq<U>)
    ensures |ys| <= |xs|
    ensures forall j :: 0 <= j < |ys| ==> exists i :: 0 <= i < |xs| && f(xs[i]) == Some(ys[j])
    ensures forall i :: 0 <= i < |xs| && f(xs[i]).Some? ==> f(xs[i]).value in ys
  {
    if |xs| == 0 then []
    else
      var rest := FilterMap(xs[1..], f);
      assert forall j :: 0 <= j < |rest| ==> exists i :: 1 <= i < |xs| && f(xs[i]) == Some(rest[j]) by {
        forall j | 0 <= j < |rest|
          ensures exists i :: 1 <= i < |xs| && f(xs[i]) == Some(rest[j])
        {
          var i :| 0 <= i < |xs[1..]| && f(xs[1..][i]) == Some(rest[j]);
          assert f(xs[i + 1]) == Some(rest[j]);
        }
      }
      assert forall i :: 1 <= i < |xs| && f(xs[i]).Some? ==> f(xs[i]).value in rest by {
        forall i | 1 <= i < |xs| && f(xs[i]).Some?
          ensures f(xs[i]).value in rest
        {
          assert xs[1..][i - 1] == xs[i];
        }
      }
      match f(xs[0])
      case Some(y) => [y] + rest
      case None => rest
  }

  /** Splits `xs` into the elements satisfying `p` and the others, both in order. */
  function Partition<T>(xs: seq<T>, p: T -> bool): (r: (seq<T>, seq<T>))
    ensures |r.0| + |r.1| == |xs|
    ensures forall x :: x in r.0 ==> x in xs && p(x)
    ensures forall x :: x in r.1 ==> x in xs && !p(x)
    ensures forall i :: 0 <= i < |xs| ==> xs[i] in (if p(xs[i]) then r.0 else r.1)
  {
    if |xs| == 0 then ([], [])
    else
      var rest := Partition(xs[1..], p);
      assert forall i :: 1 <= i < |xs| ==> xs[i] == xs[1..][i - 1];
      if p(xs[0]) then ([xs[0]] + rest.0, rest.1) else (rest.0, [xs[0]] + rest.1)
  }

  /** When every element satisfies `p`, the partition keeps all of them. */
  lemma {:induction false} PartitionAll<T>(xs: seq<T>, p: T -> bool)
    requires forall i :: 0 <= i < |xs| ==> p(xs[i])
    ensures Partition(xs, p) == (xs, [])
    decreases |xs|
  {
    if |xs| > 0 {
      PartitionAll(xs[1..], p);
      assert xs == [xs[0]] + xs[1..];
    }
  }

  /** Counting `q` among the elements a partition by `p` selects is counting
      `p && q` over the whole sequence. */
  lemma {:induction false} CountSelected<T>(xs: seq<T>, p: T -> bool, q: T -> bool, pq: T -> bool)
    requires forall i :: 0 <= i < |xs| ==> pq(xs[i]) == (p(xs[i]) && q(xs[i]))
    ensures Count(Partition(xs, p).0, q) == Count(xs, pq)
    decreases |xs|
  {
    if |xs| > 0 {
      assert forall i :: 1 <= i < |xs| ==> xs[i] == xs[1..][i - 1];
      CountSelected(xs[1..], p, q, pq);
      var rest := Partition(xs[1..], p);
      if p(xs[0]) {
        assert ([xs[0]] + rest.0)[1..] == rest.0;
      }
    }
  }

  /** The number of elements of `xs` satisfying `p`. */
  function Count<T>(xs: seq<T>, p: T -> bool): (n: nat)
    ensures n <= |xs|
    ensures n == 0 <==> forall i :: 0 <= i < |xs| ==> !p(xs[i])
  {
    if |xs| == 0 then 0
    else
      var rest := Count(xs[1..], p);
      assert forall i :: 1 <= i < |xs| ==> xs[i] == xs[1..][i - 1];
      (if p(xs[0]) then 1 else 0) + rest
  }
}

=== FILE: timers.dfy ===
/** The life-counter entities: the Gravity field, the Shield, the EMP field
    (each a box with a life) and the cosmetic Explosion. All of them count
    their life down by one per `update` and are removed only once it has
    gone negative, not when it reaches zero. */
module Timers {
  import opened Wrappers
  import opened Arena
  import Seqs

  /** Lives given at creation. */
  const GravityLife: int := 400
  const ShieldLife: int := 400
  const EmpLife: int := 10
  const EnemyExplosionLife: int := 100
  const BombExplosionLife: int := 50

  /** A Gravity, Shield or EMP: a box and its remaining life. */
  datatype Field = Field(rect: Rect, life: int)

  /** One `update` of a Gravity, Shield or EMP. */
  function TickField(f: Field): (r: Option<Field>)
    ensures r.Some? <==> f.life >= 1
    ensures r.Some? ==> r.value == f.(life := f.life - 1) && r.value.life >= 0
  {
    var life := f.life - 1;
    if life < 0 then None else Some(f.(life := life))
  }

  /** `n` consecutive updates; `None` once the field has been removed. */
  function RunField(f: Field, n: nat): Option<Field>
    decreases n
  {
    if n == 0 then Some(f)
    else match TickField(f)
      case None => None
      case Some(g) => RunField(g, n - 1)
  }

  /** A field created with life `L` survives exactly `L` updates and is
      removed by update number `L + 1`. */
  lemma {:induction false} FieldLifetime(f: Field, n: nat)
    requires f.life >= 0
    ensures RunField(f, n).Some? <==> n <= f.life
    ensures RunField(f, n).Some? ==> RunField(f, n).value.life == f.life - n
    decreases n
  {
    if n > 0 && f.life >= 1 {
      FieldLifetime(f.(life := f.life - 1), n - 1);
    }
  }

  /** One `update` of a whole group of fields. */
  function TickFields(fs: seq<Field>): (r: seq<Field>)
    ensures |r| <= |fs|
    ensures forall g :: g in r ==> g.life >= 0 && g.(life := g.life + 1) in fs
    ensures forall f :: f in fs && f.life >= 1 ==> f.(life := f.life - 1) in r
  {
    Seqs.FilterMap(fs, TickField)
  }

  /** An explosion: its centre, its life, and which of its two images shows. */
  datatype Explosion = Explosion(cx: int, cy: int, life: int, image: nat)

  /** A fresh explosion centred on `r`, showing its first image. */
  function Blast(r: Rect, life: int): (e: Explosion)
    ensures e.cx == r.CenterX() && e.cy == r.CenterY() && e.life == life && e.image == 0
  {
    Explosion(r.CenterX(), r.CenterY(), life, 0)
  }

  /** The image shown for a life value: `life // 10 % 2` in Python. With the
      positive divisors used here Dafny's Euclidean `/` and `%` agree with
      Python's floor division and modulo, also for the life value -1. */
  function ImageIndex(life: int): (i: nat)
    ensures i <= 1
  {
    (life / 10) % 2
  }

  /** The image changes every ten updates and is the same within each
      aligned block of ten. */
  lemma ImageAlternates(life: int)
    ensures ImageIndex(life - 10) != ImageIndex(life)
    ensures ImageIndex(life) == ImageIndex(life - life % 10)
  {
    assert (life - 10) / 10 == life / 10 - 1;
  }

  /** One `update` of an explosion: count down, pick the image, and vanish
      once the life is negative. */
  function TickExplosion(e: Explosion): (r: Option<Explosion>)
    ensures r.Some? <==> e.life >= 1
    ensures r.Some? ==> r.value.cx == e.cx && r.value.cy == e.cy
    ensures r.Some? ==> r.value.life == e.life - 1 && r.value.image == ImageIndex(e.life - 1)
  {
    var life := e.life - 1;
    var shown := e.(life := life, image := ImageIndex(life));
    if life < 0 then None else Some(shown)
  }

  /** `n` consecutive updates of one explosion; `None` once it has vanished. */
  function RunExplosion(e: Explosion, n: nat): Option<Explosion>
    decreases n
  {
    if n == 0 then Some(e)
    else match TickExplosion(e)
      case None => None
      case Some(g) => RunExplosion(g, n - 1)
  }

  /** An explosion created with life `L` is shown for exactly `L` more
      updates, keeps its centre, and vanishes at update number `L + 1`. */
  lemma {:induction false} ExplosionLifetime(e: Explosion, n: nat)
    requires e.life >= 0
    ensures RunExplosion(e, n).Some? <==> n <= e.life
    ensures RunExplosion(e, n).Some? ==>
      && RunExplosion(e, n).value.life == e.life - n
      && RunExplosion(e, n).value.cx == e.cx && RunExplosion(e, n).value.cy == e.cy
    decreases n
  {
    if n > 0 && e.life >= 1 {
      ExplosionLifetime(TickExplosion(e).value, n - 1);
    }
  }

  /** One `update` of the explosion group: the survivors are exactly the
      updates of the explosions that had life left. */
  function TickExplosions(es: seq<Explosion>): (r: seq<Explosion>)
    ensures |r| <= |es|
    ensures forall x :: x in r ==> 0 <= x.life && x.image <= 1
    ensures forall j :: 0 <= j < |r| ==> exists i :: 0 <= i < |es| && TickExplosion(es[i]) == Some(r[j])
    ensures forall i :: 0 <= i < |es| && es[i].life >= 1 ==> TickExplosion(es[i]).value in r
  {
    Seqs.FilterMap(es, TickExplosion)
  }
}

=== FILE: wrappers.dfy ===
/** The one optional-value datatype the model needs: `None` stands for an
    entity that was removed, a field that was never assigned, or a value
    that is unbounded. */
module Wrappers {

  datatype Option<+T> = None | Some(value: T)
}
